=== FILE: README.md ===
# Treeherder data cycling and Taskcluster scope matching, in Dafny

This project models two parts of Treeherder.

**Data cycling.** This is the `cycle_data` management command, in `treeherder/model/management/commands/cycle_data.py`.

- The command reads a `from:<source>` subcommand, defaulting to `from:treeherder`. It picks a cycler by the text after the ':' and builds it from the remaining options.
- **Perfherder cycler:**
  - It runs four removal strategies in order: Main, TryData, Irrelevant and Stalled.
  - Each strategy fixes its cutoff once, when it is built: now minus `days or CYCLE_INTERVAL` days. The default intervals are 365, 42, 180 and 120 days.
  - An explicit `days` is refused with a `ValueError` on every host except `treeherder-prototype2.herokuapp.com`.
  - `_delete_in_chunks` repeats `strategy.remove`, each call being one `DELETE ... LIMIT` chunk.
    - It checks the 23-hour run-time budget before every chunk.
    - It stops when the row count is 0 or -1.
    - A failure before any successful chunk turns into `NoDataCyclingAtAll`, which only moves the cycle on to the next strategy. A later failure just ends the loop.
  - A spent budget aborts the whole cycle, the leftover step included.
  - The leftover step hands the signatures last updated no later than `max_timestamp` to the signature remover. It then deletes the alert summaries that have no alerts and no related alerts and were created more than 180 days ago.
- **Strategy scopes.** Each strategy deletes only inside its own scope:
  - Main: every expired row.
  - TryData: the try repository and the current batch of up to 10 signatures. The batches are taken from the try signatures, newest id first.
  - Irrelevant: every repository outside the five relevant ones.
  - Stalled: one signature at a time. The signatures are taken from the end of the list of stale signatures, sorted by `last_updated`.
- **Treeherder cycler.** After expiring jobs, it prunes job types, job groups and machines that no job refers to. It deletes the unused ids `chunk_size` at a time.

**Scope matching.** This is `satisfiesExpression` and `patternMatch` in `treeherder/utils/taskcluster_lib_scopes.py`.

- A scope set satisfies a scope string when one of its scopes matches the string as a pattern. A pattern ending in '*' matches any scope that starts with the rest of the pattern.
- A scope set satisfies an `AllOf`/`AnyOf` dictionary by the all/any rule.
- A scope set that is not a list is refused with a `TypeError`.

**How the model is built.**

- The database is a `Database` object that holds `performance_datum` as a sequence of rows, plus the alert summaries.
- A `Cursor` executes DELETE statements and reports `rowcount`.
- A `Clock` is read once per `datetime.now()`.
- `MaxRuntime` is the run-time guard.
- A fault oracle decides which statements fail, like an `OperationalError`.
- The strategies are classes whose candidate lists shrink in place.
- A `Strategy` datatype dispatches among the four strategy classes.
- The `while True` loops are `while` loops over helper methods that each model one iteration:
  - `Pass` is one iteration of `remove` in TryData and Stalled;
  - `Chunk` and `Attempt` are one iteration of `_delete_in_chunks`;
  - `RunStrategy` is one iteration of `cycle`.
- The central safety property is `RemovesOnly(before, after, envelope)`. It says the new table is a sub-multiset of the old one and the rows outside the envelope are unchanged. The envelope is the strategy's scope, with `push_timestamp <= cutoff`.
  - Every strategy's `Remove`, `_delete_in_chunks` and the whole `Cycle` keep it.
  - Consequently a row that no strategy's scope covers survives a cycle.

## Model

All cycling paths are relative to `treeherder/model/management/commands/cycle_data.py`. All scope paths are relative to `treeherder/utils/taskcluster_lib_scopes.py`.

| member | source | states |
|---|---|---|
| Strategies.DefaultCutoff | treeherder/model/management/commands/cycle_data.py:229-235 | With no `days`, or `days` 0, the cutoff lies exactly `CYCLE_INTERVAL` days before now. |
| Strategies.OverriddenCutoff | treeherder/model/management/commands/cycle_data.py:229-235 | A non-zero `days` puts the cutoff that many days before now. |
| Cyclers.NewStrategy | treeherder/model/management/commands/cycle_data.py:229-235 | Builds the k-th strategy from one clock reading. Its cutoff is now − (`days` or its interval) days, and it keeps the given chunk size. |
| Cyclers.FabricateAllStrategies | treeherder/model/management/commands/cycle_data.py:251-260 | A refused `days` gives `ValueError` before any clock reading. Otherwise it returns Main, TryData, Irrelevant and Stalled in that order. They are distinct objects with the same chunk size, and each takes its cutoff from its own reading. |
| Cyclers.FourStrategies | treeherder/model/management/commands/cycle_data.py:251-260 | Four valid strategies on distinct objects form a valid, distinct list that shares one chunk size. |
| Strategies.DefaultsOffPrototype | treeherder/model/management/commands/cycle_data.py:33-42 | Off the prototype host the guard passes exactly when `days` is missing, so every retention window stays at its default there. An explicit `days=0` is refused, although `days or CYCLE_INTERVAL` would treat it as no override. |
| Cyclers.NewPerfherderCycler | treeherder/model/management/commands/cycle_data.py:108-122 | The `has_valid_explicit_days` guard runs first: `ValueError` with the clock untouched. Otherwise it gives a valid cycler with the fabricated strategies and a fresh, unstarted timer. |
| Cyclers.PerfherderCycler.constructor | treeherder/model/management/commands/cycle_data.py:118-122 | Keeps the chunk size, sleep time, strategies and timer. |
| Strategies.MainRemovalStrategy.constructor | treeherder/model/management/commands/cycle_data.py:275-277 | Cutoff = now − (`days` or 365) days. |
| Strategies.MainRemovalStrategy.Remove | treeherder/model/management/commands/cycle_data.py:283-304 | Deletes only expired rows, and at most `chunk_size` of them. It fails with `EmptyQuerySet` exactly when no row is newer than the cutoff (the `[0]` lookup). It fails with `OperationalError` exactly when such a row exists and the store fails the DELETE; it fails in no other way. `rowcount` equals the number deleted. On success the new table is the old one after `DELETE ... LIMIT` with the ideal chunk size computed on the old table. A successful delete of 0 rows leaves no expired row. |
| PerfData.IdealChunkSize | treeherder/model/management/commands/cycle_data.py:298-304 | Fails exactly when no live row exists. Otherwise, with c the count of expired rows with id ≤ the newest live id: the result is c when 0 < c ≤ `chunk_size`, `chunk_size` when c > `chunk_size`, and `chunk_size` when c is 0. So it is min(c, `chunk_size`) whenever c > 0, and at least 1 when `chunk_size` ≥ 1. |
| PerfData.NewestLiveId | treeherder/model/management/commands/cycle_data.py:299 | None exactly when no live (non-expired, non-excluded) row exists. Otherwise it is the largest id of a live row. |
| PerfData.CountOlder | treeherder/model/management/commands/cycle_data.py:300-302 | Bounded by the table size. It is zero exactly when no expired, non-excluded row has id ≤ the given id. |
| Store.Cursor.ExecuteDelete | treeherder/model/management/commands/cycle_data.py:285-292 | An ill-formed statement (an empty IN list) fails, and so does a faulting statement. Otherwise the first `limit` matching rows go, and `rowcount` is how many. A failure changes neither the rows nor `rowcount`. |
| PerfData.Matched | treeherder/model/management/commands/cycle_data.py:287-289 | The rows a WHERE clause selects: exactly the table's rows that match. |
| PerfData.Unmatched | treeherder/model/management/commands/cycle_data.py:287-289 | Exactly the table's rows that do not match. |
| PerfData.NoneMatched | treeherder/model/management/commands/cycle_data.py:287-289 | When no row matches, nothing is selected. |
| PerfData.DeleteLimitedLength | treeherder/model/management/commands/cycle_data.py:287-289 | `DELETE ... LIMIT n` shortens the table by exactly the reported count. |
| PerfData.DeleteLimitedKeeps | treeherder/model/management/commands/cycle_data.py:287-289 | The rows the WHERE clause does not select are unchanged, order included. |
| PerfData.DeleteLimitedTakesFront | treeherder/model/management/commands/cycle_data.py:287-289 | The deleted rows are the first matching rows. The rest of the matching rows remain. |
| PerfData.DeleteLimitedShrinks | treeherder/model/management/commands/cycle_data.py:287-289 | A delete only removes rows: the new table is a sub-multiset of the old one. |
| PerfData.DeleteNothing | treeherder/model/management/commands/cycle_data.py:287-289 | A delete of 0 rows leaves the table as it was. |
| PerfData.DeleteLimited | treeherder/model/management/commands/cycle_data.py:285-292 | `DELETE ... LIMIT n` never lengthens the table, and `LIMIT 0` leaves it as it was. |
| PerfData.DeleteWithin | treeherder/model/management/commands/cycle_data.py:287-289 | A delete whose WHERE lies inside an envelope removes only rows of that envelope. |
| PerfData.UnmatchedOfNarrower | treeherder/model/management/commands/cycle_data.py:287-289 | Rows outside an envelope are the rows outside it among the rows outside a narrower clause. |
| PerfData.UnmatchedAppend | treeherder/model/management/commands/cycle_data.py:287-289 | Selecting the non-matching rows distributes over concatenation. |
| PerfData.RemovesOnlyReflexive | treeherder/model/management/commands/cycle_data.py:197-198 | Deleting nothing stays within any envelope. |
| PerfData.RemovesOnlyTransitive | treeherder/model/management/commands/cycle_data.py:186-203 | Successive chunks within one envelope stay within it. |
| PerfData.RemovesOnlyWiden | treeherder/model/management/commands/cycle_data.py:385-394 | A change within a narrow scope (one signature batch) is within any wider one. |
| PerfData.RemovesOnlyShrinks | treeherder/model/management/commands/cycle_data.py:186-203 | A change within an envelope never grows the table. |
| PerfData.RemovesOnlyKeeps | treeherder/model/management/commands/cycle_data.py:287-289 | A row outside the envelope survives. |
| PerfData.LiveRowsSurvive | treeherder/model/management/commands/cycle_data.py:288 | A row newer than the cutoff survives. The `<=` is inclusive. |
| PerfData.DeleteChainWithin | treeherder/model/management/commands/cycle_data.py:364-375 | Two deletes inside one envelope together stay within it. |
| Strategies.TryDataRemoval.constructor | treeherder/model/management/commands/cycle_data.py:322-327 | Cutoff = now − (`days` or 42) days. The cursors start empty and nothing is engaged yet. |
| Strategies.TryDataRemoval.TryRepo | treeherder/model/management/commands/cycle_data.py:333-337 | The try repository id is looked up once and cached. It fails when no repository is named `try`. |
| Strategies.IdsOfIndex | treeherder/model/management/commands/cycle_data.py:355 | `values_list('id')` keeps length and position. |
| Strategies.TrySignatureIdsNewestFirst | treeherder/model/management/commands/cycle_data.py:349-357 | Exactly the ids of the try repository's signatures, in non-increasing id order. |
| Strategies.TryDataRemoval.TargetSignatures | treeherder/model/management/commands/cycle_data.py:339-347 | The first call sets the target to the first 10 candidates and leaves the candidate list whole. It raises on an empty batch or a missing try repository. Later calls return the cached batch. |
| Strategies.FirstBatchAttemptedTwice | treeherder/model/management/commands/cycle_data.py:340-398 | The first lookup takes the same 10 ids the initial target took, so the first batch is attempted twice. |
| Strategies.LookupStep | treeherder/model/management/commands/cycle_data.py:396-398 | Each lookup takes the next 10 ids from the front and deletes them from the list. |
| Strategies.BatchBounds | treeherder/model/management/commands/cycle_data.py:396-401 | A batch has at most 10 ids. It is empty exactly when the list is. The list shrinks strictly on every lookup with a non-empty list. |
| Strategies.TryDataRemoval.LookupNewSignature | treeherder/model/management/commands/cycle_data.py:396-401 | The target becomes the front 10 ids and the list loses them. It reports `LookupError` exactly when the list was empty. |
| Strategies.TryDataRemoval.AttemptRemove | treeherder/model/management/commands/cycle_data.py:381-394 | Deletes up to `chunk_size` rows of the try repository, expired, with a signature in the target batch. The batch lies within the strategy's envelope. Every failure other than the empty lookup has its cause: no `try` repository, an empty batch (malformed `IN ()`), or the store failing the DELETE it issued. |
| Strategies.TryDataRemoval.Pass | treeherder/model/management/commands/cycle_data.py:364-375 | One iteration: stays within the envelope. A row count above 0 stops the loop. A count of 0 records the batch as cleared and moves to the next batch, with strictly less left. `LookupError` stops the loop with nothing pending. A failure has one of three causes: no `try` repository, an empty first batch, or the store failing the last statement. |
| Strategies.TryDataRemoval.AfterDelete | treeherder/model/management/commands/cycle_data.py:367-372 | After a delete went through: a positive count stops the loop. A count of 0 leaves the table as it was, adds the batch to the cleared ids and takes the next batch with strictly less left, or stops with nothing pending. |
| Strategies.TryDataRemoval.NextBatch | treeherder/model/management/commands/cycle_data.py:372 | After a 0-row attempt the batch joins the cleared ids, and the lookup either strictly shrinks what is left or ends with nothing pending. |
| Strategies.TryDataRemoval.Remove | treeherder/model/management/commands/cycle_data.py:359-375 | Terminates and deletes at most `chunk_size` rows within the envelope. A positive `rowcount` reports the rows deleted. Stopping without a deletion means every pending try signature has no expired row left. A failure has one of three causes: no `try` repository, an empty first batch, or the store failing the last statement issued. |
| Strategies.TryDataRemoval.TargetWithinEnvelope | treeherder/model/management/commands/cycle_data.py:385-394 | The delete of a target batch lies inside the try envelope. |
| Strategies.TryDataRemoval.ClearedAppend | treeherder/model/management/commands/cycle_data.py:383 | Two signature lists with no expired row left concatenate to one with none. |
| Strategies.RelevantIds | treeherder/model/management/commands/cycle_data.py:435-446 | The ids of the relevant repositories that exist. The list is shorter exactly when some name is missing. |
| Strategies.IrrelevantDataRemoval.constructor | treeherder/model/management/commands/cycle_data.py:425-429 | Cutoff = now − (`days` or 180) days. |
| Strategies.IrrelevantDataRemoval.RelevantRepositories | treeherder/model/management/commands/cycle_data.py:435-446 | Computed once and cached: exactly the ids of the named repositories that exist. |
| Strategies.IrrelevantDataRemoval.Remove | treeherder/model/management/commands/cycle_data.py:452-482 | Deletes at most `chunk_size` expired rows outside the relevant repositories. It fails with `EmptyQuerySet` exactly when no live row outside them exists. Given such a row, an empty `NOT IN ()` list fails as a malformed statement, and otherwise it fails with `OperationalError` exactly when the store fails the DELETE. On success the new table is the old one after `DELETE ... LIMIT` with the ideal chunk size computed outside the relevant repositories. A successful 0-row delete leaves nothing in scope. |
| Strategies.IrrelevantDataRemoval.RelevantRowsSurvive | treeherder/model/management/commands/cycle_data.py:455-466 | Rows of the relevant repositories are never deleted. |
| Strategies.StaleSignaturesOrdered | treeherder/model/management/commands/cycle_data.py:514-522 | Exactly the signatures with `last_updated <= cutoff`, sorted by `last_updated` ascending. |
| Seqs.SortByOrdered | treeherder/model/management/commands/cycle_data.py:518-520 | `order_by` sorts by its key and only rearranges its input. |
| Strategies.StalledDataRemoval.constructor | treeherder/model/management/commands/cycle_data.py:497-501 | Cutoff = now − (`days` or 120) days. Nothing is targeted yet. |
| Strategies.StalledDataRemoval.TargetSignature | treeherder/model/management/commands/cycle_data.py:503-512 | The first call pops the last stale signature, or raises `LookupError` on an empty list. Later calls return the cached target. |
| Strategies.StalledDataRemoval.LookupNewSignature | treeherder/model/management/commands/cycle_data.py:563-567 | Pops the last remaining signature into the target. It raises `LookupError` exactly when the list is empty, and then nothing changes. |
| Strategies.StalledDataRemoval.AttemptRemove | treeherder/model/management/commands/cycle_data.py:548-561 | Deletes up to `chunk_size` expired rows of the target signature's repository and id. The target is one of the stale signatures. It fails only with the empty lookup or with `OperationalError`, the latter when the store failed the DELETE. |
| Strategies.StalledDataRemoval.Pass | treeherder/model/management/commands/cycle_data.py:525-538 | One iteration: a row count above 0 stops the loop. A count of 0 marks the target cleared and pops the next one, and the list strictly shrinks. An exhausted list stops the loop. The only failure is `OperationalError`, after the store failed the last statement. |
| Strategies.StalledDataRemoval.NextTarget | treeherder/model/management/commands/cycle_data.py:529-533 | After a 0-row attempt the target joins the signatures with no expired row left. The next pop strictly shrinks the list, or the list is empty and every pending signature is cleared. |
| Strategies.StalledDataRemoval.Remove | treeherder/model/management/commands/cycle_data.py:524-538 | Terminates and deletes at most `chunk_size` rows within the envelope. The list only shrinks. Stopping without a deletion leaves the list empty and every pending stale signature with no expired row. The only failure is `OperationalError`, after the store failed the last statement issued. |
| Strategies.StalledDataRemoval.TargetWithinEnvelope | treeherder/model/management/commands/cycle_data.py:548-561 | The delete for a stale target lies inside the stalled envelope. |
| Strategies.StalledDataRemoval.TargetNewest | treeherder/model/management/commands/cycle_data.py:503-522 | The target is the most recently updated of the signatures still listed, and it is itself stale. |
| Strategies.StalledDataRemoval.ClearedTarget | treeherder/model/management/commands/cycle_data.py:529-533 | A target whose attempt deleted nothing joins the signatures with no expired row left. |
| Cyclers.EnvelopeCutoff | treeherder/model/management/commands/cycle_data.py:279-281 | Every strategy's envelope stops at its own `max_timestamp`. |
| Cyclers.RemoveChunk | treeherder/model/management/commands/cycle_data.py:189-190 | `strategy.remove(using=cursor)` for any of the four strategies. It deletes at most `chunk_size` rows within the strategy's envelope and changes nothing on failure. A non-positive count means the strategy is finished. Every failure has its strategy's cause: no newer row (`EmptyQuerySet`), an empty `IN`/`NOT IN` list, a missing `try` repository, or the store failing the last statement. |
| Cyclers.PerfherderCycler.MaxTimestamp | treeherder/model/management/commands/cycle_data.py:124-130 | The largest strategy cutoff: it is some strategy's cutoff and no cutoff exceeds it. |
| Seqs.MaxOf | treeherder/model/management/commands/cycle_data.py:129 | `max` returns an element that bounds all elements. |
| Cyclers.PerfherderCycler.DeleteInChunks | treeherder/model/management/commands/cycle_data.py:182-203 | Stays within the strategy's envelope. The budget is checked before every chunk: every check but the last passed, and the run ends `MaxRuntimeExceeded` exactly when the last one failed. At most `chunk_size` rows go per passing check, and none after the failed one. With the ghost `failure` as the error that ended the loop, if any: `NoDataCyclingAtAll` exactly when a removal failed and the table kept its length, and then the table is untouched; `StoppedAfterError` exactly when a removal failed after the table shrank; each failure has its strategy's cause. `Exhausted` leaves the strategy finished. |
| Cyclers.PerfherderCycler.Chunk | treeherder/model/management/commands/cycle_data.py:186-203 | One iteration: the budget check comes first and decides `MaxRuntimeExceeded`, and then neither the table nor the statement count changes. Otherwise at most `chunk_size` rows go. The loop continues only after a positive count that shrank the table. When the loop stops, the whole run so far satisfies the same outcome classification as `DeleteInChunks`. |
| Cyclers.PerfherderCycler.Attempt | treeherder/model/management/commands/cycle_data.py:189-217 | Deletes at most `chunk_size` rows. A failure leaves the table unchanged, has its strategy's cause, and stops the loop: `NoDataCyclingAtAll` before any success, `StoppedAfterError` after one. Without a failure the loop stops exactly on a count of 0 or -1, with the strategy finished. |
| Cyclers.NewerThanAllCutoffs | treeherder/model/management/commands/cycle_data.py:141-144 | A row newer than every cutoff lies outside every strategy's scope. |
| Cyclers.PerfherderCycler.RunStrategy | treeherder/model/management/commands/cycle_data.py:141-146 | One strategy's chunks keep every other strategy valid. The run satisfies the outcome classification of `DeleteInChunks`, and it is `MaxRuntimeExceeded` exactly when its last budget check failed. It extends the per-strategy traces of tables and clock readings by one entry that obeys the budget rule of `DeleteInChunks`. Rows outside all strategies run so far survive. |
| Cyclers.PerfherderCycler.RunAll | treeherder/model/management/commands/cycle_data.py:140-147 | Runs the strategies in list order. Only the last outcome may be `MaxRuntimeExceeded`, and an early stop ends with it. The last outcome is `MaxRuntimeExceeded` exactly when the last budget check failed. A ghost trace of tables and statement marks shows the k-th strategy taking the table from trace[k] to trace[k + 1] with the outcome classification of `DeleteInChunks`: within its envelope, unchanged on `NoDataCyclingAtAll`, finished on `Exhausted`. A ghost trace of clock readings gives each strategy its own budget checks: all but the last passed, the last failed exactly on `MaxRuntimeExceeded`, and at most `chunk_size` rows went per passing check. Rows outside every strategy survive, and the table only shrinks. |
| Cyclers.PerfherderCycler.Cycle | treeherder/model/management/commands/cycle_data.py:132-150 | Starts the timer and runs the strategies, with the same per-strategy traces of tables and budget checks as `RunAll`, measured from the start reading. A `MaxRuntimeExceeded` outcome comes from a failed budget check; it skips the leftovers and leaves the alert summaries untouched. Otherwise the stale signatures are handed over and the old empty summaries are pruned. The signature remover's own budget check, which could still stop the cycle before the pruning, is not modelled. |
| Cyclers.PruneSummaries | treeherder/model/management/commands/cycle_data.py:164-180 | Keeps exactly the summaries that are not (0 alerts, 0 related alerts and created strictly before now − 180 days). |
| Cyclers.SignaturesUpToMembers | treeherder/model/management/commands/cycle_data.py:155 | Exactly the signatures with `last_updated <= max_timestamp`. |
| Seqs.FilterMembers | treeherder/model/management/commands/cycle_data.py:155 | A filter keeps exactly the elements that satisfy it. |
| Cyclers.PerfherderCycler.RemoveLeftovers | treeherder/model/management/commands/cycle_data.py:152-180 | Hands over the signatures up to `max_timestamp`. It then replaces the alert summaries by the pruned ones, as of one clock reading. |
| Store.Clock.Now | treeherder/model/management/commands/cycle_data.py:235 | Returns the next reading and advances the clock. |
| Store.MaxRuntime.constructor | treeherder/model/management/commands/cycle_data.py:122 | A new timer is not started. |
| Store.MaxRuntime.StartTimer | treeherder/model/management/commands/cycle_data.py:138 | Records the current reading as the start. |
| Store.MaxRuntime.QuitOnTimeout | treeherder/model/management/commands/cycle_data.py:187 | Reports exactly whether more than 23 hours elapsed since the start. |
| Store.ExceededIsPermanent | treeherder/model/management/commands/cycle_data.py:187 | With a clock that never goes back, a spent budget stays spent. |
| Treeherder.TreeherderCycler.constructor | treeherder/model/management/commands/cycle_data.py:61-66 | `days` is `days or 120`. |
| Treeherder.UnusedMembers | treeherder/model/management/commands/cycle_data.py:90 | The unused ids are exactly the table's ids that no job uses. |
| Treeherder.WithoutMembers | treeherder/model/management/commands/cycle_data.py:97 | A delete by id list removes exactly the listed ids. |
| Treeherder.WithoutTwice | treeherder/model/management/commands/cycle_data.py:94-98 | Two chunked deletes equal one delete of both chunks. |
| Treeherder.BatchesBounds | treeherder/model/management/commands/cycle_data.py:94-98 | The loop issues ⌈n / `chunk_size`⌉ statements: enough to cover n ids, with no spare one. |
| Treeherder.TreeherderCycler.Prune | treeherder/model/management/commands/cycle_data.py:87-98 | Deletes the unused ids in consecutive chunks of 1 to `chunk_size` ids. The chunks concatenate to the unused list, so each unused id is deleted once. The statement count is ⌈n / `chunk_size`⌉. |
| Treeherder.PruneLeavesUsed | treeherder/model/management/commands/cycle_data.py:87-98 | After pruning, the table holds exactly its ids that some job uses, in their order. |
| Treeherder.TreeherderCycler.RemoveLeftovers | treeherder/model/management/commands/cycle_data.py:84-102 | Job types, job groups and machines each keep exactly the ids the remaining jobs use, in table order. An id survives exactly when it was in the table and some remaining job refers to it. |
| Command.Split | treeherder/model/management/commands/cycle_data.py:628 | `str.split`: at least one piece, and no piece contains the separator. |
| Command.JoinSplit | treeherder/model/management/commands/cycle_data.py:628 | Joining the pieces of a split gives back the string. |
| Command.SplitJoin | treeherder/model/management/commands/cycle_data.py:628 | Splitting joined separator-free pieces gives back the pieces. |
| Command.DataSourceKey | treeherder/model/management/commands/cycle_data.py:627-628 | The only failure is `IndexError`. |
| Command.DataSourceKeyIsSecondField | treeherder/model/management/commands/cycle_data.py:627-628 | The key is the text between the first and second ':'. |
| Command.NoSeparatorNoKey | treeherder/model/management/commands/cycle_data.py:628 | A non-empty subcommand without ':' raises `IndexError`. |
| Command.DefaultIsTreeherder | treeherder/model/management/commands/cycle_data.py:627 | A missing or empty subcommand selects `treeherder`. |
| Command.PerfherderSubcommandKey | treeherder/model/management/commands/cycle_data.py:627-628 | `from:perfherder` selects `perfherder`. |
| Command.FabricateDataCycler | treeherder/model/management/commands/cycle_data.py:626-631 | An unparsable subcommand raises `IndexError`, and an unknown key `KeyError`. `treeherder` builds a Treeherder cycler with `days or 120`. `perfherder` either refuses `days` with `ValueError` or builds a valid Perfherder cycler with fabricated strategies. |
| Scopes.FindFrom | treeherder/utils/taskcluster_lib_scopes.py:30 | `str.find`: the result is -1 or an index at or after the start where the substring occurs. An occurrence right at the start is returned. |
| Scopes.FindFromLowest | treeherder/utils/taskcluster_lib_scopes.py:30 | `str.find` returns the first occurrence: any occurrence at or after the start bounds the result, so -1 means the substring does not occur. |
| Scopes.FindZeroIffPrefix | treeherder/utils/taskcluster_lib_scopes.py:30 | `scope.find(p) == 0` exactly when `scope` starts with `p`. |
| Scopes.PatternMatch | treeherder/utils/taskcluster_lib_scopes.py:25-32 | A scope equal to the pattern matches. Any other match needs a trailing '*' and the scope starting with the rest of the pattern. |
| Scopes.PatternMatchExact | treeherder/utils/taskcluster_lib_scopes.py:26-27 | Every scope matches itself. |
| Scopes.StarIffPrefix | treeherder/utils/taskcluster_lib_scopes.py:29-30 | A pattern ending in '*' matches exactly the scopes that start with the pattern minus its '*'. |
| Scopes.BareStarMatchesAll | treeherder/utils/taskcluster_lib_scopes.py:29-30 | '*' matches every scope. |
| Scopes.NoStarMeansEqual | treeherder/utils/taskcluster_lib_scopes.py:25-32 | Without a trailing '*', a pattern matches only the identical scope. |
| Scopes.AnyMatch | treeherder/utils/taskcluster_lib_scopes.py:15 | A scope the set holds verbatim is matched, and the empty set matches nothing. |
| Scopes.AnyMatchIff | treeherder/utils/taskcluster_lib_scopes.py:15 | `any(...)` over the scope set holds exactly when some scope matches. |
| Scopes.SatisfiesExpression | treeherder/utils/taskcluster_lib_scopes.py:9-22 | Fails with `TypeError` exactly when the scope set is not a list. |
| Scopes.IsSatisfied | treeherder/utils/taskcluster_lib_scopes.py:13-20 | A scope string the set holds is satisfied. An empty `AllOf` is satisfied (`all([])`). A dictionary with neither key, or with only an empty `AnyOf`, is not. |
| Scopes.ScopeSatisfied | treeherder/utils/taskcluster_lib_scopes.py:14-15 | A scope string is satisfied exactly when some scope of the set, playing the pattern, matches it. |
| Scopes.EmptyScopeSetSatisfiesNoScope | treeherder/utils/taskcluster_lib_scopes.py:14-15 | The empty scope set satisfies no scope string. |
| Scopes.StarSatisfiesEveryScope | treeherder/utils/taskcluster_lib_scopes.py:14-15 | A set holding '*' satisfies every scope string. |
| Scopes.EmptyAllOf | treeherder/utils/taskcluster_lib_scopes.py:18 | An empty `AllOf` is satisfied. |
| Scopes.EmptyAnyOf | treeherder/utils/taskcluster_lib_scopes.py:19 | An empty `AnyOf` on its own is not satisfied. |
| Scopes.NeitherKey | treeherder/utils/taskcluster_lib_scopes.py:17-20 | A dictionary with neither key is not satisfied. |
| Scopes.AllOfFallsThrough | treeherder/utils/taskcluster_lib_scopes.py:17-20 | A failing `AllOf` leaves the answer to the `AnyOf` of the same dictionary. |
| Scopes.Monotone | treeherder/utils/taskcluster_lib_scopes.py:13-19 | Adding scopes never turns a satisfied expression unsatisfied. |
| Scopes.SameScopesSameAnswer | treeherder/utils/taskcluster_lib_scopes.py:13-19 | Only the set of scopes matters, not their order or repetitions. |
| Scopes.AsWrittenAgrees | treeherder/utils/taskcluster_lib_scopes.py:29-30 | On patterns not ending in a newline, the regular-expression test and the last-character test agree. |
| Scopes.PatternMatchAsWritten | treeherder/utils/taskcluster_lib_scopes.py:29-30 | As written: a scope equal to the pattern matches. Any other match needs the regular expression `\*$` to find the star, and then only the last character is dropped before the prefix test, even when that character is the newline after '*'. |
| Scopes.NewlinePatternMatches | treeherder/utils/taskcluster_lib_scopes.py:29-30 | As written, the pattern "a*\n" matches the scope "a*b". The last-character reading does not. |

## Left out

- SQL text, the Django ORM and the `cursor._last_executed` message are not modelled.
  - Each statement is modelled by its effect on the row sequence.
  - `DELETE ... LIMIT n` without `ORDER BY` deletes the first `n` matching rows in table order. The database may pick any `n`.
- Logging, `is_debug`, `sleep_time`, `Command.add_arguments` and `Command.handle` are not modelled. They have no effect on the data.
- `Job.objects.cycle_data`, and with it the job-expiry half of `TreeherderCycler.cycle`, are not part of this model. `RemoveLeftovers` takes the remaining jobs as input.
- The signature remover and the Taskcluster notification (`PublicSignatureRemover`, `TaskclusterModel`) are not part of this model. `Cycle` returns the signatures it would hand over. The remover's own use of the timer is not modelled.
- `MaxRuntime`'s own file is not part of this model.
  - The timer is modelled from its uses: started once, and checked before every chunk.
  - `MaxRuntime()` is built without arguments, so the ceiling is `MaxRuntime`'s own default. It is taken to be 23 hours, the same value as `PerfherderCycler.DEFAULT_MAX_RUNTIME`, which the cycler itself never passes on.
  - "Spent" is taken as strictly more than 23 hours.
- The wall clock is a sequence of readings. The host name is a parameter.
- The `strategies` argument of `PerfherderCycler.__init__` is not modelled: the strategies are always fabricated.
- Chunk sizes are natural numbers: Python's slices with negative sizes are not modelled.
- Treeherder.TreeherderCycler.Prune: requires `chunk_size` ≥ 1. With 0 the source's loop never ends, because `unused_ids[0:]` never shrinks.
- Only DELETE statements can fail with an operational error. Other failures are modelled where the source's `remove` calls raise:
  - the empty `[0]` lookup;
  - a missing `try` repository;
  - an empty `IN`/`NOT IN` list, which is malformed SQL.
- The try and stalled candidate lists are fixed when the strategy is built. The source reads them lazily on first use. The registry of repositories and signatures does not change during a run, so the lists are equal.
- Ties in `order_by` keep their order in the registry, because the insertion sort is stable. The database may order ties differently.
- Strategies.TryDataRemoval.Remove: states the cause of every failure, but not the converse as a postcondition: that a missing `try` repository or an empty first batch always makes the call fail. `TargetSignatures` and `TryRepo` state those failures themselves. The same holds for `Strategies.TryDataRemoval.Pass`.
- Cyclers.RemoveChunk: states the cause of every failure, and the converse only where the strategy's own `Remove` does (Main and Irrelevant).
- Scopes.AnyMatch, Scopes.ScopeSatisfied, Scopes.IsSatisfied, Scopes.SatisfiesExpression: follow the corrected `PatternMatch` (see Findings), so a pattern ending in "*\n" is a prefix pattern only in the source, where they can answer True while the model answers False.
- Scope-set elements that are not strings, expressions that are neither a string nor a dictionary, and an `AllOf`/`AnyOf` value that is not a list are not modelled.

## Findings

| source | as written | input that shows it | evidently intended | confidence | as-written member | corrected member |
|---|---|---|---|---|---|---|
| treeherder/utils/taskcluster_lib_scopes.py:29-30 | `re.search(r"\*$", pattern)` also accepts a pattern ending in "*\n", because `$` matches before a final newline. It then strips only the newline and does a prefix test on "…*". | `patternMatch("a*\n", "a*b")` returns True, although the pattern does not end in '*' and differs from the scope | Only a final '*' makes a prefix pattern, as in the JavaScript scopes library this module ports | not executed; follows from Python's documented `$` semantics | Scopes.NewlinePatternMatches | Scopes.StarIffPrefix |

=== FILE: command.dfy ===
/**
 * The `cycle_data` management command: picks the cycler named by the
 * `from:<source>` subcommand and builds it from the remaining options.
 */
module Command {
  import opened Wrappers
  import opened Seqs
  import opened PerfData
  import opened Store
  import opened Strategies
  import opened Cyclers
  import opened Treeherder

  const TreeherderKey: string := "treeherder"
  const PerfherderKey: string := "perfherder"
  /** The subcommand assumed when none is given. */
  const TreeherderSubcommand: string := "from:treeherder"
  const PerfherderSubcommand: string := "from:perfherder"

  /** The parsed command line; `data_source` is absent when no subcommand was given. */
  datatype Options = Options(dataSource: Option<string>, chunkSize: nat, sleepTime: int, days: Option<int>, isDebug: bool)

  /** The cycler `fabricate_data_cycler` hands back. */
  datatype Cycler = TreeherderData(treeherder: TreeherderCycler) | PerfherderData(perfherder: PerfherderCycler)

  /** Python's `str.split(sep)`: the pieces between separators, empty ones included. */
  function Split(s: string, sep: char): (r: seq<string>)
    ensures |r| >= 1
    ensures forall k :: 0 <= k < |r| ==> sep !in r[k]
  {
    if s == [] then [[]]
    else
      var rest := Split(s[1..], sep);
      if s[0] == sep then [[]] + rest
      else [[s[0]] + rest[0]] + rest[1..]
  }

  /** `sep.join(parts)`, the inverse of `Split`. */
  function Join(parts: seq<string>, sep: char): string
    requires |parts| >= 1
  {
    if |parts| == 1 then parts[0] else parts[0] + [sep] + Join(parts[1..], sep)
  }

  /** Joining the pieces of a split gives the string back. */
  lemma {:induction false} JoinSplit(s: string, sep: char)
    ensures Join(Split(s, sep), sep) == s
  {
    if s != [] {
      var rest := Split(s[1..], sep);
      JoinSplit(s[1..], sep);
      if s[0] == sep {
        assert Split(s, sep)[1..] == rest;
      } else {
        var r := Split(s, sep);
        assert r[0] == [s[0]] + rest[0] && r[1..] == rest[1..];
        if |rest| > 1 {
          assert rest[1..][1..] == rest[2..];
          assert Join(rest, sep) == rest[0] + [sep] + Join(rest[1..], sep);
        }
      }
    }
  }

  /** Splitting a string that starts with the separator opens an empty first piece. */
  lemma SplitSeparator(s: string, sep: char)
    ensures Split([sep] + s, sep) == [[]] + Split(s, sep)
  {
    assert ([sep] + s)[1..] == s;
  }

  /** Splitting a string that starts with another character extends the first piece. */
  lemma SplitOther(c: char, s: string, sep: char)
    requires c != sep
    ensures Split([c] + s, sep) == [[c] + Split(s, sep)[0]] + Split(s, sep)[1..]
  {
    assert ([c] + s)[1..] == s;
  }

  /** Joining pieces whose first one starts with `c` starts with `c`. */
  lemma JoinFirst(c: char, w: string, rest: seq<string>, sep: char)
    ensures Join([[c] + w] + rest, sep) == [c] + Join([w] + rest, sep)
  {
    var parts, shorter := [[c] + w] + rest, [w] + rest;
    assert parts[1..] == rest && shorter[1..] == rest;
    if rest != [] {
      ConcatAssoc([c], w, [sep] + Join(rest, sep));
      assert Join(parts, sep) == ([c] + w) + ([sep] + Join(rest, sep));
      assert Join(shorter, sep) == w + ([sep] + Join(rest, sep));
    }
  }

  /** Splitting pieces that hold no separator, joined, gives the pieces back. */
  lemma {:induction false} SplitJoin(parts: seq<string>, sep: char)
    requires |parts| >= 1
    requires forall k :: 0 <= k < |parts| ==> sep !in parts[k]
    ensures Split(Join(parts, sep), sep) == parts
    decreases |parts|, |parts[0]|
  {
    var rest := parts[1..];
    if parts[0] == [] {
      if rest != [] {
        forall k | 0 <= k < |rest| ensures sep !in rest[k] {
          assert rest[k] == parts[k + 1];
        }
        SplitJoin(rest, sep);
        assert Join(parts, sep) == [sep] + Join(rest, sep);
        SplitSeparator(Join(rest, sep), sep);
        assert parts == [[]] + rest;
      }
    } else {
      var c, w := parts[0][0], parts[0][1..];
      assert parts[0] == [c] + w;
      assert parts == [[c] + w] + rest;
      var shorter := [w] + rest;
      forall k | 0 <= k < |shorter| ensures sep !in shorter[k] {
        if k > 0 {
          assert shorter[k] == parts[k];
        } else {
          assert forall x :: x in w ==> x in parts[0];
        }
      }
      SplitJoin(shorter, sep);
      JoinFirst(c, w, rest, sep);
      assert c in parts[0];
      SplitOther(c, Join(shorter, sep), sep);
      assert shorter[1..] == rest;
    }
  }

  /**
   * `(options.pop('data_source') or TREEHERDER_SUBCOMMAND).split(':')[1]`:
   * a missing or empty subcommand means Treeherder; a subcommand without
   * a ':' has no second field and raises IndexError.
   */
  function DataSourceKey(dataSource: Option<string>): (r: Result<string, CommandError>)
    ensures r.Failure? ==> r.error == IndexError
  {
    SecondField(Subcommand(dataSource))
  }

  /** `options.pop('data_source') or TREEHERDER_SUBCOMMAND` */
  function Subcommand(dataSource: Option<string>): string
  {
    if dataSource.None? || dataSource.value == "" then TreeherderSubcommand else dataSource.value
  }

  /** `source.split(':')[1]` */
  function SecondField(source: string): (r: Result<string, CommandError>)
  {
    var fields := Split(source, ':');
    if |fields| < 2 then Failure(IndexError) else Success(fields[1])
  }

  /** The key is exactly the text between the first and the second ':'. */
  lemma DataSourceKeyIsSecondField(prefix: string, key: string, suffix: seq<string>)
    requires ':' !in prefix && ':' !in key
    requires forall k :: 0 <= k < |suffix| ==> ':' !in suffix[k]
    ensures DataSourceKey(Some(Join([prefix, key] + suffix, ':'))) == Success(key)
  {
    var parts := [prefix, key] + suffix;
    PiecesWithoutSeparator(prefix, key, suffix);
    SplitJoin(parts, ':');
    var source := Join(parts, ':');
    assert source == prefix + [':'] + Join(parts[1..], ':');
    assert Subcommand(Some(source)) == source;
    assert SecondField(source) == Success(key);
  }

  lemma PiecesWithoutSeparator(prefix: string, key: string, suffix: seq<string>)
    requires ':' !in prefix && ':' !in key
    requires forall k :: 0 <= k < |suffix| ==> ':' !in suffix[k]
    ensures forall k :: 0 <= k < |[prefix, key] + suffix| ==> ':' !in ([prefix, key] + suffix)[k]
  {
    var parts := [prefix, key] + suffix;
    forall k | 0 <= k < |parts| ensures ':' !in parts[k] {
      if k >= 2 {
        assert parts[k] == suffix[k - 2];
      }
    }
  }

  /** A string without the separator splits into itself alone. */
  lemma {:induction false} SplitNoSeparator(s: string, sep: char)
    requires sep !in s
    ensures Split(s, sep) == [s]
  {
    if s != [] {
      assert forall x :: x in s[1..] ==> x in s;
      SplitNoSeparator(s[1..], sep);
      assert s == [s[0]] + s[1..];
    }
  }

  /** A subcommand without any ':' cannot be resolved. */
  lemma NoSeparatorNoKey(source: string)
    requires source != [] && ':' !in source
    ensures DataSourceKey(Some(source)) == Failure(IndexError)
  {
    SplitNoSeparator(source, ':');
  }

  /** `fabricate_data_cycler`: the named cycler, built from the remaining options. */
  method FabricateDataCycler(options: Options, siteHostname: string, clock: Clock, registry: Registry)
    returns (r: Result<Cycler, CommandError>)
    modifies clock
    ensures DataSourceKey(options.dataSource).Failure? ==> r == Failure(IndexError) && clock.ticks == old(clock.ticks)
    ensures DataSourceKey(options.dataSource) == Success(TreeherderKey) ==>
      && r.Success? && r.value.TreeherderData? && fresh(r.value.treeherder)
      && r.value.treeherder.chunkSize == options.chunkSize && r.value.treeherder.sleepTime == options.sleepTime
      && r.value.treeherder.days == RetentionDays(options.days, DefaultCycleInterval)
      && clock.ticks == old(clock.ticks)
    ensures DataSourceKey(options.dataSource) == Success(PerfherderKey) ==>
      if HasValidExplicitDays(options.days, siteHostname) then
        && r.Success? && r.value.PerfherderData? && fresh(r.value.perfherder)
        && r.value.perfherder.Valid() && r.value.perfherder.timer.startedAt.None?
        && r.value.perfherder.chunkSize == options.chunkSize
        && Fabricated(r.value.perfherder.strategies, options.chunkSize, options.days, clock.readings, old(clock.ticks))
      else
        r == Failure(ValueError) && clock.ticks == old(clock.ticks)
    ensures (DataSourceKey(options.dataSource).Success? &&
             DataSourceKey(options.dataSource).value !in {TreeherderKey, PerfherderKey}) ==>
      r == Failure(KeyError) && clock.ticks == old(clock.ticks)
  {
    var key := DataSourceKey(options.dataSource);
    if key.Failure? {
      r := Failure(key.error);
    } else if key.value == TreeherderKey {
      var cycler := new TreeherderCycler(options.chunkSize, options.sleepTime, options.days);
      r := Success(TreeherderData(cycler));
    } else if key.value == PerfherderKey {
      var cycler := NewPerfherderCycler(options.chunkSize, options.sleepTime, options.days, siteHostname, clock, registry);
      if cycler.Failure? {
        r := Failure(cycler.error);
      } else {
        r := Success(PerfherderData(cycler.value));
      }
    } else {
      r := Failure(KeyError);
    }
  }

  /** Without a subcommand the Treeherder cycler is chosen. */
  lemma DefaultIsTreeherder(dataSource: Option<string>)
    requires dataSource == None || dataSource == Some("")
    ensures DataSourceKey(dataSource) == Success(TreeherderKey)
  {
    var parts := ["from", TreeherderKey];
    assert Join(parts, ':') == "from" + [':'] + Join(parts[1..], ':');
    assert TreeherderSubcommand == "from" + [':'] + TreeherderKey;
    DataSourceKeyIsSecondField("from", TreeherderKey, []);
  }

  /** The Perfherder subcommand names the Perfherder cycler. */
  lemma PerfherderSubcommandKey()
    ensures DataSourceKey(Some(PerfherderSubcommand)) == Success(PerfherderKey)
  {
    var parts := ["from", PerfherderKey];
    assert Join(parts, ':') == "from" + [':'] + Join(parts[1..], ':');
    assert PerfherderSubcommand == "from" + [':'] + PerfherderKey;
    DataSourceKeyIsSecondField("from", PerfherderKey, []);
  }
}

=== FILE: cyclers.dfy ===
/**
 * `PerfherderCycler`: runs the removal strategies one after the other,
 * each chunk by chunk under a run-time budget, then prunes leftovers.
 */
module Cyclers {
  import opened Wrappers
  import opened Seqs
  import opened PerfData
  import opened Store
  import opened Strategies

  /** What construction raises before anything is built. */
  datatype CommandError =
    | ValueError // a retention override on a host that forbids it
    | KeyError   // an unknown data source
    | IndexError // a data source without a `:`

  /** One of the four removal strategies (`RemovalStrategy`). */
  datatype Strategy =
    | Main(main: MainRemovalStrategy)
    | TryData(tryData: TryDataRemoval)
    | Irrelevant(irrelevant: IrrelevantDataRemoval)
    | Stalled(stalled: StalledDataRemoval)

  function ObjectOf(s: Strategy): object
  {
    match s
    case Main(m) => m
    case TryData(t) => t
    case Irrelevant(i) => i
    case Stalled(st) => st
  }

  /** `CYCLE_INTERVAL` */
  function CycleIntervalOf(s: Strategy): int
  {
    match s
    case Main(_) => MainCycleInterval
    case TryData(_) => TryCycleInterval
    case Irrelevant(_) => IrrelevantCycleInterval
    case Stalled(_) => StalledCycleInterval
  }

  /** `max_timestamp`: the strategy's cutoff. */
  function MaxTimestampOf(s: Strategy): int
  {
    match s
    case Main(m) => m.maxTimestamp
    case TryData(t) => t.maxTimestamp
    case Irrelevant(i) => i.maxTimestamp
    case Stalled(st) => st.maxTimestamp
  }

  function ChunkSizeOf(s: Strategy): nat
  {
    match s
    case Main(m) => m.chunkSize
    case TryData(t) => t.chunkSize
    case Irrelevant(i) => i.chunkSize
    case Stalled(st) => st.chunkSize
  }

  function NameOf(s: Strategy): string
  {
    match s
    case Main(m) => m.Name()
    case TryData(t) => t.Name()
    case Irrelevant(i) => i.Name()
    case Stalled(st) => st.Name()
  }

  /** The rows the strategy may ever delete. */
  ghost function EnvelopeOf(s: Strategy): Where
  {
    match s
    case Main(m) => m.Envelope()
    case TryData(t) => t.Envelope()
    case Irrelevant(i) => i.Envelope()
    case Stalled(st) => st.Envelope()
  }

  /** Every envelope is cut off at the strategy's `max_timestamp`. */
  lemma EnvelopeCutoff(s: Strategy)
    ensures EnvelopeOf(s).cutoff == MaxTimestampOf(s)
  {
    match s
    case Main(m) =>
    case TryData(t) =>
    case Irrelevant(i) =>
    case Stalled(st) =>
  }

  ghost predicate ValidStrategy(s: Strategy)
    reads ObjectOf(s)
  {
    match s
    case Main(_) => true
    case TryData(t) => t.Valid()
    case Irrelevant(i) => i.Valid()
    case Stalled(st) => st.Valid()
  }

  /** A `remove` issues a delete before anything else can stop it. */
  ghost predicate EngagedStrategy(s: Strategy)
    reads ObjectOf(s)
  {
    match s
    case Main(_) => true
    case TryData(t) => t.Engaged()
    case Irrelevant(_) => true
    case Stalled(st) => st.Engaged()
  }

  /** The strategy has nothing left to delete from `rows`. */
  ghost predicate Finished(s: Strategy, rows: seq<Datum>)
    reads ObjectOf(s)
  {
    match s
    case Main(m) => m.chunkSize >= 1 ==> Matched(rows, m.Envelope()) == []
    case TryData(t) => t.Pending() == []
    case Irrelevant(i) => i.chunkSize >= 1 ==> Matched(rows, i.Envelope()) == []
    case Stalled(st) => st.removableSignatures == Some([])
  }

  /** The Try strategy holds the empty batch an exhausted list leaves behind. */
  ghost predicate EmptyBatch(s: Strategy)
    reads ObjectOf(s)
  {
    s.TryData? && s.tryData.targetSignatures.Some? && |s.tryData.targetSignatures.value| == 0
  }

  /**
   * Why `strategy.remove` can fail, given the rows it left (a failed
   * removal deletes nothing), whether the Try strategy started on an empty
   * batch, and the statements issued from the `since`-th to the `until`-th:
   * no row newer than the cutoff to size a chunk by (Main, Irrelevant), an
   * empty `IN ()` or `NOT IN ()` list (Irrelevant without relevant
   * repositories, Try on an empty batch), no try repository, or the store
   * failing the last statement.
   */
  ghost predicate RemovalFailedBecause(s: Strategy, e: Error, rows: seq<Datum>, emptyBatch: bool,
                                       faults: nat -> bool, since: nat, until: nat)
  {
    match e
    case EmptyQuerySet =>
      || (s.Main? && forall d :: d in rows ==> d.pushTimestamp <= s.main.maxTimestamp)
      || (s.Irrelevant? && forall d :: d in rows ==> !Live(d, s.irrelevant.maxTimestamp, s.irrelevant.Relevant()))
    case MalformedStatement => (s.Irrelevant? && s.irrelevant.Relevant() == []) || (s.TryData? && emptyBatch)
    case RepositoryDoesNotExist => s.TryData? && s.tryData.TryRepository().None?
    case OperationalError => since < until && faults(until - 1)
    case NoCandidates => false
  }

  /** A reason found over fewer statements, or with no empty batch, holds over more of them. */
  lemma FailedBecauseEarlier(s: Strategy, e: Error, rows: seq<Datum>, b1: bool, b0: bool,
                             faults: nat -> bool, since1: nat, since0: nat, until: nat)
    requires RemovalFailedBecause(s, e, rows, b1, faults, since1, until)
    requires (b1 ==> b0) && since0 <= since1
    ensures RemovalFailedBecause(s, e, rows, b0, faults, since0, until)
  {
  }

  /** `strategy.remove(using=cursor)` */
  method RemoveChunk(s: Strategy, cursor: Cursor) returns (outcome: Result<(), Error>)
    requires ValidStrategy(s)
    modifies ObjectOf(s), cursor, cursor.db`rows, cursor.db`statements
    ensures ValidStrategy(s)
    ensures RemovesOnly(old(cursor.db.rows), cursor.db.rows, EnvelopeOf(s))
    ensures |old(cursor.db.rows)| - |cursor.db.rows| <= ChunkSizeOf(s)
    ensures outcome.Failure? ==> cursor.db.rows == old(cursor.db.rows)
    ensures outcome.Success? ==>
      || cursor.rowcount == |old(cursor.db.rows)| - |cursor.db.rows|
      || (cursor.rowcount == old(cursor.rowcount) && cursor.db.rows == old(cursor.db.rows) && !old(EngagedStrategy(s)))
    ensures outcome.Success? && cursor.rowcount > 0 && cursor.rowcount == |old(cursor.db.rows)| - |cursor.db.rows| ==>
      EngagedStrategy(s)
    ensures outcome.Success? && cursor.rowcount <= 0 ==> Finished(s, cursor.db.rows)
    ensures cursor.db.statements >= old(cursor.db.statements)
    ensures outcome.Failure? ==>
      RemovalFailedBecause(s, outcome.error, cursor.db.rows, old(EmptyBatch(s)),
                           cursor.db.faults, old(cursor.db.statements), cursor.db.statements)
  {
    match s
    case Main(m) =>
      outcome := m.Remove(cursor);
      RemovesOnlyShrinks(old(cursor.db.rows), cursor.db.rows, m.Envelope());
    case TryData(t) =>
      outcome := t.Remove(cursor);
    case Irrelevant(i) =>
      outcome := i.Remove(cursor);
      RemovesOnlyShrinks(old(cursor.db.rows), cursor.db.rows, i.Envelope());
    case Stalled(st) =>
      outcome := st.Remove(cursor);
  }

  function Objects(ss: seq<Strategy>): set<object>
  {
    set s | s in ss :: ObjectOf(s)
  }

  ghost predicate ValidStrategies(ss: seq<Strategy>)
    reads Objects(ss)
  {
    forall s :: s in ss ==> ValidStrategy(s)
  }

  /** No two strategies share an object. */
  predicate Distinct(ss: seq<Strategy>)
  {
    forall i, j :: 0 <= i < j < |ss| ==> ObjectOf(ss[i]) != ObjectOf(ss[j])
  }

  /**
   * What `fabricate_all_strategies` builds: Main, TryData, Irrelevant and
   * Stalled, in that order, the k-th one cut off from the k-th clock
   * reading from `t0` on.
   */
  ghost predicate Fabricated(ss: seq<Strategy>, chunkSize: nat, days: Option<int>, readings: nat -> int, t0: nat)
    reads Objects(ss)
  {
    && |ss| == 4
    && ss[0].Main? && ss[1].TryData? && ss[2].Irrelevant? && ss[3].Stalled?
    && (forall s :: s in ss ==> ChunkSizeOf(s) == chunkSize)
    && MaxTimestampOf(ss[0]) == CutoffFor(readings(t0), days, MainCycleInterval)
    && MaxTimestampOf(ss[1]) == CutoffFor(readings(t0 + 1), days, TryCycleInterval)
    && MaxTimestampOf(ss[2]) == CutoffFor(readings(t0 + 2), days, IrrelevantCycleInterval)
    && MaxTimestampOf(ss[3]) == CutoffFor(readings(t0 + 3), days, StalledCycleInterval)
    && ValidStrategies(ss)
    && Distinct(ss)
  }

  /**
   * `fabricate_all_strategies`. Every strategy constructor is guarded by
   * `has_valid_explicit_days`, so a refused override raises before the
   * first one is built.
   */
  method FabricateAllStrategies(chunkSize: nat, days: Option<int>, siteHostname: string, clock: Clock, registry: Registry)
    returns (r: Result<seq<Strategy>, CommandError>)
    modifies clock
    ensures !HasValidExplicitDays(days, siteHostname) ==> r == Failure(ValueError) && clock.ticks == old(clock.ticks)
    ensures HasValidExplicitDays(days, siteHostname) ==>
      && r.Success? && clock.ticks == old(clock.ticks) + 4
      && Fabricated(r.value, chunkSize, days, clock.readings, old(clock.ticks))
  {
    if !HasValidExplicitDays(days, siteHostname) {
      return Failure(ValueError);
    }
    var main := NewStrategy(0, chunkSize, days, clock, registry);
    var tryData := NewStrategy(1, chunkSize, days, clock, registry);
    var irrelevant := NewStrategy(2, chunkSize, days, clock, registry);
    var stalled := NewStrategy(3, chunkSize, days, clock, registry);
    var ss := [main, tryData, irrelevant, stalled];
    FourStrategies(ss, chunkSize);
    r := Success(ss);
  }

  /** The strategy's place in `fabricate_all_strategies`. */
  function Position(s: Strategy): nat
  {
    match s
    case Main(_) => 0
    case TryData(_) => 1
    case Irrelevant(_) => 2
    case Stalled(_) => 3
  }

  /** Builds the strategy at place `k`; its constructor reads the clock once. */
  method NewStrategy(k: nat, chunkSize: nat, days: Option<int>, clock: Clock, registry: Registry) returns (s: Strategy)
    requires k < 4
    modifies clock
    ensures Position(s) == k && fresh(ObjectOf(s))
    ensures ValidStrategy(s) && ChunkSizeOf(s) == chunkSize
    ensures MaxTimestampOf(s) == CutoffFor(clock.readings(old(clock.ticks)), days, CycleIntervalOf(s))
    ensures clock.ticks == old(clock.ticks) + 1
  {
    var now := clock.Now();
    if k == 0 {
      var main := new MainRemovalStrategy(chunkSize, days, now);
      s := Main(main);
    } else if k == 1 {
      var tryData := new TryDataRemoval(chunkSize, days, now, registry);
      s := TryData(tryData);
    } else if k == 2 {
      var irrelevant := new IrrelevantDataRemoval(chunkSize, days, now, registry);
      s := Irrelevant(irrelevant);
    } else {
      var stalled := new StalledDataRemoval(chunkSize, days, now, registry);
      s := Stalled(stalled);
    }
  }

  lemma FourStrategies(ss: seq<Strategy>, chunkSize: nat)
    requires |ss| == 4
    requires ValidStrategy(ss[0]) && ValidStrategy(ss[1]) && ValidStrategy(ss[2]) && ValidStrategy(ss[3])
    requires ChunkSizeOf(ss[0]) == ChunkSizeOf(ss[1]) == ChunkSizeOf(ss[2]) == ChunkSizeOf(ss[3]) == chunkSize
    requires ObjectOf(ss[0]) != ObjectOf(ss[1]) && ObjectOf(ss[0]) != ObjectOf(ss[2]) && ObjectOf(ss[0]) != ObjectOf(ss[3])
    requires ObjectOf(ss[1]) != ObjectOf(ss[2]) && ObjectOf(ss[1]) != ObjectOf(ss[3]) && ObjectOf(ss[2]) != ObjectOf(ss[3])
    ensures ValidStrategies(ss) && Distinct(ss)
    ensures forall s :: s in ss ==> ChunkSizeOf(s) == chunkSize
  {
    assert forall s :: s in ss ==> s == ss[0] || s == ss[1] || s == ss[2] || s == ss[3];
  }

  /** How `_delete_in_chunks` ended for one strategy. */
  datatype ChunksOutcome =
    | Exhausted          // a chunk reported a row count of 0 or -1
    | StoppedAfterError  // a chunk failed after an earlier one had deleted rows
    | NoDataCyclingAtAll // the very first chunk failed
    | MaxRuntimeExceeded // the run-time budget was spent before a chunk

  /**
   * What `_delete_in_chunks` for `s` did to the table, from `before` to
   * `after`, over the statements from the `since`-th to the `until`-th:
   * only rows of its envelope went; a failing chunk ended it, escalated to
   * `NoDataCyclingAtAll` exactly when nothing had been deleted before, and
   * failed for a reason `RemovalFailedBecause` names; a chunk reporting
   * 0 or -1 rows left the strategy with nothing to delete.
   */
  ghost predicate Ran(s: Strategy, result: ChunksOutcome, failure: Option<Error>, before: seq<Datum>, after: seq<Datum>,
                      emptyBatch: bool, faults: nat -> bool, since: nat, until: nat)
    reads ObjectOf(s)
  {
    && since <= until
    && RemovesOnly(before, after, EnvelopeOf(s))
    && (result == NoDataCyclingAtAll <==> failure.Some? && |after| == |before|)
    && (result == StoppedAfterError <==> failure.Some? && |after| < |before|)
    && (result == NoDataCyclingAtAll ==> after == before)
    && (failure.Some? ==> RemovalFailedBecause(s, failure.value, after, emptyBatch, faults, since, until))
    && (result == Exhausted ==> Finished(s, after))
  }

  /**
   * `trace` holds the table before each strategy ran and after the last
   * one, `marks` the number of statements issued by then, `failures` the
   * failure that ended each run, if any.
   */
  ghost predicate Traced(outcomes: seq<ChunksOutcome>, trace: seq<seq<Datum>>, marks: seq<nat>, failures: seq<Option<Error>>,
                         before: seq<Datum>, after: seq<Datum>, since: nat, until: nat)
  {
    && |trace| == |marks| == |outcomes| + 1 && |failures| == |outcomes|
    && trace[0] == before && trace[|outcomes|] == after
    && marks[0] == since && marks[|outcomes|] == until
  }

  /** The strategies ran in list order, the k-th taking the table from `trace[k]` to `trace[k + 1]`. */
  ghost predicate RanInOrder(ss: seq<Strategy>, outcomes: seq<ChunksOutcome>, failures: seq<Option<Error>>,
                             trace: seq<seq<Datum>>, marks: seq<nat>, emptyBatches: seq<bool>, faults: nat -> bool)
    reads Objects(ss)
  {
    && |outcomes| <= |ss| && |outcomes| <= |emptyBatches|
    && |failures| == |outcomes| && |trace| == |marks| == |outcomes| + 1
    && forall k :: 0 <= k < |outcomes| ==>
         Ran(ss[k], outcomes[k], failures[k], trace[k], trace[k + 1], emptyBatches[k], faults, marks[k], marks[k + 1])
  }

  /**
   * The budget side of `_delete_in_chunks` for `s`, which read the clock
   * from the `from`-th to the `(to - 1)`-th reading, one reading per
   * chunk: every check but the last passed, the last decides
   * `MaxRuntimeExceeded`, and only a chunk whose check passed deleted
   * anything, at most `chunk_size` rows each.
   */
  ghost predicate Budgeted(s: Strategy, result: ChunksOutcome, before: seq<Datum>, after: seq<Datum>,
                           startedAt: int, readings: nat -> int, from: nat, to: nat)
  {
    && from < to
    && (forall t :: from <= t < to - 1 ==> !Exceeded(startedAt, readings(t)))
    && (result == MaxRuntimeExceeded <==> Exceeded(startedAt, readings(to - 1)))
    && |before| - |after| <= ChunkSizeOf(s) * (to - from - (if result == MaxRuntimeExceeded then 1 else 0))
  }

  /** One more chunk, after a budget check at reading `now`, extends a budgeted run. */
  lemma BudgetStep(s: Strategy, result: ChunksOutcome, rows0: seq<Datum>, before: seq<Datum>, after: seq<Datum>,
                   startedAt: int, readings: nat -> int, from: nat, now: nat)
    requires from <= now
    requires forall t :: from <= t < now ==> !Exceeded(startedAt, readings(t))
    requires |rows0| - |before| <= ChunkSizeOf(s) * (now - from)
    requires result == MaxRuntimeExceeded <==> Exceeded(startedAt, readings(now))
    requires result == MaxRuntimeExceeded ==> after == before
    requires |before| - |after| <= ChunkSizeOf(s)
    ensures Budgeted(s, result, rows0, after, startedAt, readings, from, now + 1)
    ensures result != MaxRuntimeExceeded ==>
      && (forall t :: from <= t < now + 1 ==> !Exceeded(startedAt, readings(t)))
      && |rows0| - |after| <= ChunkSizeOf(s) * (now + 1 - from)
  {
    assert ChunkSizeOf(s) * (now + 1 - from) == ChunkSizeOf(s) * (now - from) + ChunkSizeOf(s);
  }

  /** The strategies' budget checks in list order, the k-th reading the clock from `clocks[k]` to `clocks[k + 1]`. */
  ghost predicate BudgetedInOrder(ss: seq<Strategy>, outcomes: seq<ChunksOutcome>, trace: seq<seq<Datum>>,
                                  clocks: seq<nat>, startedAt: int, readings: nat -> int)
  {
    && |outcomes| <= |ss| && |trace| == |clocks| == |outcomes| + 1
    && forall k :: 0 <= k < |outcomes| ==>
         Budgeted(ss[k], outcomes[k], trace[k], trace[k + 1], startedAt, readings, clocks[k], clocks[k + 1])
  }

  /** A budgeted run of the next strategy extends the budgeted runs before it. */
  lemma BudgetedSnoc(ss: seq<Strategy>, outcomes: seq<ChunksOutcome>, trace: seq<seq<Datum>>, clocks: seq<nat>,
                     startedAt: int, readings: nat -> int, result: ChunksOutcome, after: seq<Datum>, tick: nat)
    requires BudgetedInOrder(ss, outcomes, trace, clocks, startedAt, readings) && |outcomes| < |ss|
    requires Budgeted(ss[|outcomes|], result, trace[|outcomes|], after, startedAt, readings, clocks[|outcomes|], tick)
    ensures BudgetedInOrder(ss, outcomes + [result], trace + [after], clocks + [tick], startedAt, readings)
  {
    var n := |outcomes|;
    forall k | 0 <= k < n + 1
      ensures Budgeted(ss[k], (outcomes + [result])[k], (trace + [after])[k], (trace + [after])[k + 1],
                       startedAt, readings, (clocks + [tick])[k], (clocks + [tick])[k + 1])
    {
      if k < n {
        assert (trace + [after])[k + 1] == trace[k + 1] && (clocks + [tick])[k + 1] == clocks[k + 1];
      }
    }
  }

  /** A run of the next strategy extends the runs before it, whose strategies it left alone. */
  lemma RanSnoc(ss: seq<Strategy>, outcomes: seq<ChunksOutcome>, failures: seq<Option<Error>>, trace: seq<seq<Datum>>,
                marks: seq<nat>, empties: seq<bool>, faults: nat -> bool,
                result: ChunksOutcome, failure: Option<Error>, after: seq<Datum>, mark: nat)
    requires |outcomes| < |ss| <= |empties| && |failures| == |outcomes| && |trace| == |marks| == |outcomes| + 1
    requires forall k :: 0 <= k < |outcomes| ==>
      Ran(ss[k], outcomes[k], failures[k], trace[k], trace[k + 1], empties[k], faults, marks[k], marks[k + 1])
    requires Ran(ss[|outcomes|], result, failure, trace[|outcomes|], after, empties[|outcomes|], faults, marks[|outcomes|], mark)
    ensures RanInOrder(ss, outcomes + [result], failures + [failure], trace + [after], marks + [mark], empties, faults)
  {
    var n := |outcomes|;
    forall k | 0 <= k < n + 1
      ensures Ran(ss[k], (outcomes + [result])[k], (failures + [failure])[k], (trace + [after])[k], (trace + [after])[k + 1],
                  empties[k], faults, (marks + [mark])[k], (marks + [mark])[k + 1])
    {
      if k < n {
        assert (trace + [after])[k + 1] == trace[k + 1] && (marks + [mark])[k + 1] == marks[k + 1];
      }
    }
  }

  /** Whether each strategy is the Try strategy stuck on an empty batch. */
  ghost function EmptyBatches(ss: seq<Strategy>): seq<bool>
    reads Objects(ss)
  {
    seq(|ss|, k requires 0 <= k < |ss| reads Objects(ss) => EmptyBatch(ss[k]))
  }

  /** No strategy among `ss` may ever delete `d`. */
  ghost predicate OutsideAll(ss: seq<Strategy>, d: Datum)
  {
    forall s :: s in ss ==> !Matches(EnvelopeOf(s), d)
  }

  /** A row pushed after every strategy's cutoff lies outside all of them. */
  lemma NewerThanAllCutoffs(ss: seq<Strategy>, d: Datum)
    requires forall s :: s in ss ==> d.pushTimestamp > MaxTimestampOf(s)
    ensures OutsideAll(ss, d)
  {
    forall s | s in ss ensures !Matches(EnvelopeOf(s), d) {
      EnvelopeCutoff(s);
    }
  }

  /** A performance alert summary the leftover pruning deletes. */
  predicate EmptyAndOld(a: AlertSummary, now: int)
  {
    a.alerts == 0 && a.relatedAlerts == 0 && a.created < now - AlertSummaryRetentionDays * SecondsPerDay
  }

  /** How old, in days, an empty alert summary must be before it is deleted. */
  const AlertSummaryRetentionDays: int := 180

  /** The alert summaries left after deleting the empty ones older than 180 days. */
  function PruneSummaries(summaries: seq<AlertSummary>, now: int): (r: seq<AlertSummary>)
    ensures forall a :: a in r <==> a in summaries && !EmptyAndOld(a, now)
    ensures |r| <= |summaries|
  {
    if summaries == [] then []
    else
      assert forall a :: a in summaries <==> a == summaries[0] || a in summaries[1..];
      (if EmptyAndOld(summaries[0], now) then [] else [summaries[0]]) + PruneSummaries(summaries[1..], now)
  }

  /** Signatures last updated at or before `cutoff`, in registry order. */
  function SignaturesUpTo(signatures: seq<Signature>, cutoff: int): seq<Signature>
  {
    Filter(signatures, (s: Signature) => s.lastUpdated <= cutoff)
  }

  lemma SignaturesUpToMembers(signatures: seq<Signature>, cutoff: int)
    ensures forall s :: s in SignaturesUpTo(signatures, cutoff) <==> s in signatures && s.lastUpdated <= cutoff
  {
    FilterMembers(signatures, (s: Signature) => s.lastUpdated <= cutoff);
  }

  class PerfherderCycler {
    const chunkSize: nat
    /** `sleep_time` is accepted and ignored when cycling performance data. */
    const sleepTime: int
    const strategies: seq<Strategy>
    const timer: MaxRuntime
    const registry: Registry

    constructor (chunkSize: nat, sleepTime: int, strategies: seq<Strategy>, timer: MaxRuntime, registry: Registry)
      ensures this.chunkSize == chunkSize && this.sleepTime == sleepTime
      ensures this.strategies == strategies && this.timer == timer && this.registry == registry
    {
      this.chunkSize := chunkSize;
      this.sleepTime := sleepTime;
      this.strategies := strategies;
      this.timer := timer;
      this.registry := registry;
    }

    ghost predicate Valid()
      reads Objects(strategies)
    {
      |strategies| > 0 && ValidStrategies(strategies) && Distinct(strategies)
    }

    /** `max_timestamp`: the latest cutoff among the strategies. */
    function MaxTimestamp(): (r: int)
      requires |strategies| > 0
      ensures exists s :: s in strategies && r == MaxTimestampOf(s)
      ensures forall s :: s in strategies ==> MaxTimestampOf(s) <= r
    {
      var cutoffs := seq(|strategies|, k requires 0 <= k < |strategies| => MaxTimestampOf(strategies[k]));
      var r := MaxOf(cutoffs);
      assert forall k :: 0 <= k < |strategies| ==> cutoffs[k] == MaxTimestampOf(strategies[k]);
      assert forall s :: s in strategies ==> MaxTimestampOf(s) <= r by {
        forall s | s in strategies ensures MaxTimestampOf(s) <= r {
          var k :| 0 <= k < |strategies| && strategies[k] == s;
          assert cutoffs[k] in cutoffs;
        }
      }
      var k :| 0 <= k < |cutoffs| && cutoffs[k] == r;
      assert strategies[k] in strategies;
      r
    }

    /**
     * `_delete_in_chunks`: check the budget, remove one chunk, and go on
     * while chunks report deleted rows. A failing chunk ends the loop; if
     * no chunk had deleted anything yet, it is escalated to
     * `NoDataCyclingAtAll` (`__handle_chunk_removal_exception`).
     */
    method DeleteInChunks(s: Strategy, db: Database) returns (result: ChunksOutcome, ghost failure: Option<Error>)
      requires ValidStrategy(s) && timer.startedAt.Some?
      modifies ObjectOf(s), db`rows, db`statements, timer.clock
      ensures ValidStrategy(s)
      ensures Ran(s, result, failure, old(db.rows), db.rows, old(EmptyBatch(s)), db.faults, old(db.statements), db.statements)
      // the budget is checked before every chunk; the last check decides
      ensures Budgeted(s, result, old(db.rows), db.rows, timer.startedAt.value, timer.clock.readings,
                       old(timer.clock.ticks), timer.clock.ticks)
    {
      var anySuccessfulAttempt := false;
      var cursor := new Cursor(db);
      ghost var rows0 := db.rows;
      ghost var ticks0 := timer.clock.ticks;
      ghost var statements0, empty0 := db.statements, EmptyBatch(s);
      RemovesOnlyReflexive(rows0, EnvelopeOf(s));
      while true
        invariant ValidStrategy(s) && fresh(cursor) && cursor.db == db
        invariant RemovesOnly(rows0, db.rows, EnvelopeOf(s))
        invariant cursor.rowcount >= -1
        invariant cursor.rowcount > 0 ==> EngagedStrategy(s)
        invariant anySuccessfulAttempt ==> |db.rows| < |rows0| && cursor.rowcount > 0
        invariant !anySuccessfulAttempt ==> db.rows == rows0 && EmptyBatch(s) == empty0
        invariant db.statements >= statements0
        invariant timer.clock.ticks >= ticks0
        invariant forall t :: ticks0 <= t < timer.clock.ticks ==> !Exceeded(timer.startedAt.value, timer.clock.readings(t))
        invariant |rows0| - |db.rows| <= ChunkSizeOf(s) * (timer.clock.ticks - ticks0)
        decreases |db.rows|
      {
        var stop;
        stop, result, failure := Chunk(s, cursor, anySuccessfulAttempt, rows0, empty0, statements0, ticks0);
        if stop {
          return;
        }
        anySuccessfulAttempt := true;
      }
    }

    /** One turn of the loop in `_delete_in_chunks`, for a run that started from `rows0`, `empty0` and `statements0`. */
    method Chunk(s: Strategy, cursor: Cursor, anySuccessfulAttempt: bool,
                 ghost rows0: seq<Datum>, ghost empty0: bool, ghost statements0: nat, ghost ticks0: nat)
      returns (stop: bool, result: ChunksOutcome, ghost failure: Option<Error>)
      requires ValidStrategy(s) && timer.startedAt.Some?
      requires ticks0 <= timer.clock.ticks
      requires forall t :: ticks0 <= t < timer.clock.ticks ==> !Exceeded(timer.startedAt.value, timer.clock.readings(t))
      requires |rows0| - |cursor.db.rows| <= ChunkSizeOf(s) * (timer.clock.ticks - ticks0)
      requires RemovesOnly(rows0, cursor.db.rows, EnvelopeOf(s))
      requires cursor.rowcount >= -1 && (cursor.rowcount > 0 ==> EngagedStrategy(s))
      requires anySuccessfulAttempt ==> |cursor.db.rows| < |rows0| && cursor.rowcount > 0
      requires !anySuccessfulAttempt ==> cursor.db.rows == rows0 && EmptyBatch(s) == empty0
      requires statements0 <= cursor.db.statements
      modifies ObjectOf(s), cursor, cursor.db`rows, cursor.db`statements, timer.clock
      ensures ValidStrategy(s) && RemovesOnly(rows0, cursor.db.rows, EnvelopeOf(s))
      ensures timer.clock.ticks == old(timer.clock.ticks) + 1
      ensures stop && result == MaxRuntimeExceeded <==>
        Exceeded(timer.startedAt.value, timer.clock.readings(old(timer.clock.ticks)))
      // a spent budget stops the chunk before its statement; otherwise at most `chunk_size` rows go
      ensures result == MaxRuntimeExceeded ==>
        cursor.db.rows == old(cursor.db.rows) && cursor.db.statements == old(cursor.db.statements)
      ensures |old(cursor.db.rows)| - |cursor.db.rows| <= ChunkSizeOf(s)
      ensures !stop ==> |cursor.db.rows| < old(|cursor.db.rows|) && cursor.rowcount > 0 && EngagedStrategy(s)
      ensures cursor.db.statements >= old(cursor.db.statements)
      ensures stop ==>
        Ran(s, result, failure, rows0, cursor.db.rows, empty0, cursor.db.faults, statements0, cursor.db.statements)
      ensures !stop ==>
        && (forall t :: ticks0 <= t < timer.clock.ticks ==> !Exceeded(timer.startedAt.value, timer.clock.readings(t)))
        && |rows0| - |cursor.db.rows| <= ChunkSizeOf(s) * (timer.clock.ticks - ticks0)
      ensures stop ==>
        Budgeted(s, result, rows0, cursor.db.rows, timer.startedAt.value, timer.clock.readings, ticks0, timer.clock.ticks)
    {
      ghost var ticksNow := timer.clock.ticks;
      stop, result, failure := true, MaxRuntimeExceeded, None;
      var exceeded := timer.QuitOnTimeout();
      if !exceeded {
        stop, result, failure := Attempt(s, cursor, anySuccessfulAttempt, rows0, empty0, statements0);
      }
      BudgetStep(s, result, rows0, old(cursor.db.rows), cursor.db.rows, timer.startedAt.value, timer.clock.readings,
                 ticks0, ticksNow);
    }

    /** The part of one chunk after the runtime check: one removal and its classification. */
    static method Attempt(s: Strategy, cursor: Cursor, anySuccessfulAttempt: bool,
                          ghost rows0: seq<Datum>, ghost empty0: bool, ghost statements0: nat)
      returns (stop: bool, result: ChunksOutcome, ghost failure: Option<Error>)
      requires ValidStrategy(s)
      requires RemovesOnly(rows0, cursor.db.rows, EnvelopeOf(s))
      requires cursor.rowcount >= -1 && (cursor.rowcount > 0 ==> EngagedStrategy(s))
      requires anySuccessfulAttempt ==> |cursor.db.rows| < |rows0| && cursor.rowcount > 0
      requires !anySuccessfulAttempt ==> cursor.db.rows == rows0 && EmptyBatch(s) == empty0
      requires statements0 <= cursor.db.statements
      modifies ObjectOf(s), cursor, cursor.db`rows, cursor.db`statements
      ensures ValidStrategy(s) && RemovesOnly(rows0, cursor.db.rows, EnvelopeOf(s))
      ensures result != MaxRuntimeExceeded
      ensures |old(cursor.db.rows)| - |cursor.db.rows| <= ChunkSizeOf(s)
      ensures !stop ==> |cursor.db.rows| < old(|cursor.db.rows|) && cursor.rowcount > 0 && EngagedStrategy(s)
      ensures cursor.db.statements >= old(cursor.db.statements)
      // a failed removal deletes nothing, fails for a reason, and is escalated when it is the first
      ensures failure.Some? ==>
        && cursor.db.rows == old(cursor.db.rows)
        && RemovalFailedBecause(s, failure.value, cursor.db.rows, old(EmptyBatch(s)),
                                cursor.db.faults, old(cursor.db.statements), cursor.db.statements)
        && stop && result == (if anySuccessfulAttempt then StoppedAfterError else NoDataCyclingAtAll)
      // otherwise the row count decides: 0 or -1 ends the loop
      ensures failure.None? ==> result == Exhausted && (stop <==> cursor.rowcount == 0 || cursor.rowcount == -1)
      ensures stop ==>
        Ran(s, result, failure, rows0, cursor.db.rows, empty0, cursor.db.faults, statements0, cursor.db.statements)
    {
      ghost var before, emptyNow, statementsNow := cursor.db.rows, EmptyBatch(s), cursor.db.statements;
      var outcome := RemoveChunk(s, cursor);
      RemovesOnlyShrinks(before, cursor.db.rows, EnvelopeOf(s));
      RemovesOnlyTransitive(rows0, before, cursor.db.rows, EnvelopeOf(s));
      stop, result, failure := true, Exhausted, None;
      if outcome.Failure? {
        failure := Some(outcome.error);
        result := if anySuccessfulAttempt then StoppedAfterError else NoDataCyclingAtAll;
        FailedBecauseEarlier(s, outcome.error, cursor.db.rows, emptyNow, empty0,
                             cursor.db.faults, statementsNow, statements0, cursor.db.statements);
      } else {
        var deletedRows := cursor.rowcount;
        if deletedRows != 0 && deletedRows != -1 {
          stop := false;
        }
      }
    }

    /**
     * `_remove_leftovers`: the signatures last updated at or before
     * `max_timestamp` go to the public signature remover (returned here);
     * then the alert summaries without alerts or related alerts that were
     * created more than 180 days before now are deleted.
     */
    method RemoveLeftovers(db: Database) returns (handedOver: seq<Signature>)
      requires |strategies| > 0
      modifies db`alertSummaries, timer.clock
      ensures forall sig :: sig in handedOver <==> sig in registry.signatures && sig.lastUpdated <= MaxTimestamp()
      ensures timer.clock.ticks == old(timer.clock.ticks) + 1
      ensures db.alertSummaries == PruneSummaries(old(db.alertSummaries), timer.clock.readings(old(timer.clock.ticks)))
    {
      handedOver := SignaturesUpTo(registry.signatures, MaxTimestamp());
      SignaturesUpToMembers(registry.signatures, MaxTimestamp());
      var now := timer.clock.Now();
      db.alertSummaries := PruneSummaries(db.alertSummaries, now);
    }

    /** One turn of the loop in `cycle`: `_delete_in_chunks` for the k-th strategy. */
    method RunStrategy(k: nat, db: Database, ghost rows0: seq<Datum>,
                       ghost outcomes: seq<ChunksOutcome>, ghost failures: seq<Option<Error>>, ghost trace: seq<seq<Datum>>,
                       ghost marks: seq<nat>, ghost clocks: seq<nat>, ghost empties: seq<bool>)
      returns (result: ChunksOutcome, ghost failure: Option<Error>)
      requires k < |strategies| && ValidStrategies(strategies) && Distinct(strategies) && timer.startedAt.Some?
      requires BudgetedInOrder(strategies, outcomes, trace, clocks, timer.startedAt.value, timer.clock.readings)
      requires RanInOrder(strategies, outcomes, failures, trace, marks, empties, db.faults)
      requires |outcomes| == k && trace[k] == db.rows && clocks[k] == timer.clock.ticks && marks[k] == db.statements
      requires |empties| == |strategies| && forall j :: k <= j < |strategies| ==> EmptyBatch(strategies[j]) == empties[j]
      requires multiset(db.rows) <= multiset(rows0)
      requires forall d :: d in rows0 && OutsideAll(strategies[..k], d) ==> d in db.rows
      modifies ObjectOf(strategies[k]), db`rows, db`statements, timer.clock
      ensures ValidStrategies(strategies)
      ensures multiset(db.rows) <= multiset(rows0)
      ensures forall d :: d in rows0 && OutsideAll(strategies[..k + 1], d) ==> d in db.rows
      ensures result == MaxRuntimeExceeded ==> forall d :: d in rows0 && OutsideAll(strategies, d) ==> d in db.rows
      ensures timer.clock.ticks > old(timer.clock.ticks)
      ensures Ran(strategies[k], result, failure, old(db.rows), db.rows, old(EmptyBatch(strategies[k])),
                  db.faults, old(db.statements), db.statements)
      ensures result == MaxRuntimeExceeded <==> Exceeded(timer.startedAt.value, timer.clock.readings(timer.clock.ticks - 1))
      ensures Budgeted(strategies[k], result, old(db.rows), db.rows, timer.startedAt.value, timer.clock.readings,
                       old(timer.clock.ticks), timer.clock.ticks)
      ensures BudgetedInOrder(strategies, outcomes + [result], trace + [db.rows], clocks + [timer.clock.ticks],
                              timer.startedAt.value, timer.clock.readings)
      ensures RanInOrder(strategies, outcomes + [result], failures + [failure], trace + [db.rows], marks + [db.statements],
                         empties, db.faults)
      ensures forall j :: k < j < |strategies| ==> EmptyBatch(strategies[j]) == empties[j]
    {
      ghost var before := db.rows;
      result, failure := DeleteInChunks(strategies[k], db);
      forall j | 0 <= j < |strategies| && j != k
        ensures unchanged(ObjectOf(strategies[j]))
      {
        assert ObjectOf(strategies[j]) != ObjectOf(strategies[k]);
      }
      RanSnoc(strategies, outcomes, failures, trace, marks, empties, db.faults, result, failure, db.rows, db.statements);
      BudgetedSnoc(strategies, outcomes, trace, clocks, timer.startedAt.value, timer.clock.readings,
                   result, db.rows, timer.clock.ticks);
      forall s | s in strategies ensures ValidStrategy(s) {
        if s != strategies[k] {
          var j :| 0 <= j < |strategies| && strategies[j] == s;
          assert ObjectOf(s) != ObjectOf(strategies[k]);
        }
      }
      forall d | d in rows0 && OutsideAll(strategies[..k + 1], d) ensures d in db.rows {
        assert strategies[k] in strategies[..k + 1];
        assert OutsideAll(strategies[..k], d) by {
          forall s | s in strategies[..k] ensures !Matches(EnvelopeOf(s), d) {
            assert s in strategies[..k + 1];
          }
        }
        RemovesOnlyKeeps(before, db.rows, EnvelopeOf(strategies[k]), d);
      }
      OutsideAllPrefix(strategies, k + 1);
    }

    /**
     * `cycle`: start the budget, run every strategy in order (a strategy
     * that could not cycle at all only moves on to the next), then remove
     * leftovers. A spent budget ends the whole run, leftovers included.
     */
    method Cycle(db: Database)
      returns (outcomes: seq<ChunksOutcome>, handedOver: seq<Signature>,
               ghost trace: seq<seq<Datum>>, ghost marks: seq<nat>, ghost failures: seq<Option<Error>>,
               ghost clocks: seq<nat>)
      requires Valid()
      modifies Objects(strategies), db`rows, db`statements, db`alertSummaries, timer, timer.clock
      ensures Valid()
      ensures 0 < |outcomes| <= |strategies|
      ensures forall k :: 0 <= k < |outcomes| - 1 ==> outcomes[k] != MaxRuntimeExceeded
      ensures |outcomes| < |strategies| ==> outcomes[|outcomes| - 1] == MaxRuntimeExceeded
      // only rows some strategy may delete are ever deleted
      ensures multiset(db.rows) <= multiset(old(db.rows))
      ensures forall d :: d in old(db.rows) && OutsideAll(strategies, d) ==> d in db.rows
      ensures timer.clock.ticks > old(timer.clock.ticks)
      ensures Traced(outcomes, trace, marks, failures, old(db.rows), db.rows, old(db.statements), db.statements)
      ensures RanInOrder(strategies, outcomes, failures, trace, marks, old(EmptyBatches(strategies)), db.faults)
      // the timer starts at the first reading; then each strategy checks it before every chunk
      ensures timer.startedAt == Some(timer.clock.readings(old(timer.clock.ticks)))
      ensures |clocks| == |outcomes| + 1 && clocks[0] == old(timer.clock.ticks) + 1
      ensures clocks[|outcomes|] == timer.clock.ticks - (if outcomes[|outcomes| - 1] == MaxRuntimeExceeded then 0 else 1)
      ensures BudgetedInOrder(strategies, outcomes, trace, clocks, timer.startedAt.value, timer.clock.readings)
      ensures outcomes[|outcomes| - 1] == MaxRuntimeExceeded ==>
        db.alertSummaries == old(db.alertSummaries) && handedOver == []
      ensures outcomes[|outcomes| - 1] == MaxRuntimeExceeded ==>
        timer.startedAt.Some? && Exceeded(timer.startedAt.value, timer.clock.readings(timer.clock.ticks - 1))
      ensures outcomes[|outcomes| - 1] != MaxRuntimeExceeded ==>
        && (forall sig :: sig in handedOver <==> sig in registry.signatures && sig.lastUpdated <= MaxTimestamp())
        && db.alertSummaries == PruneSummaries(old(db.alertSummaries), timer.clock.readings(timer.clock.ticks - 1))
    {
      NotAStrategy(strategies, db, timer);
      timer.StartTimer();
      assert unchanged(Objects(strategies));
      outcomes, trace, marks, failures, clocks := RunAll(db);
      handedOver := [];
      if outcomes[|outcomes| - 1] != MaxRuntimeExceeded {
        label ran:
        handedOver := RemoveLeftovers(db);
        assert unchanged@ran(Objects(strategies));
      }
    }

    /** The loop of `cycle`: each strategy in turn until the budget is spent. */
    method RunAll(db: Database)
      returns (outcomes: seq<ChunksOutcome>, ghost trace: seq<seq<Datum>>, ghost marks: seq<nat>, ghost failures: seq<Option<Error>>,
               ghost clocks: seq<nat>)
      requires |strategies| > 0 && ValidStrategies(strategies) && Distinct(strategies) && timer.startedAt.Some?
      modifies Objects(strategies), db`rows, db`statements, timer.clock
      ensures ValidStrategies(strategies)
      ensures 0 < |outcomes| <= |strategies|
      ensures forall k :: 0 <= k < |outcomes| - 1 ==> outcomes[k] != MaxRuntimeExceeded
      ensures |outcomes| < |strategies| ==> outcomes[|outcomes| - 1] == MaxRuntimeExceeded
      ensures multiset(db.rows) <= multiset(old(db.rows))
      ensures forall d :: d in old(db.rows) && OutsideAll(strategies, d) ==> d in db.rows
      ensures timer.clock.ticks > old(timer.clock.ticks)
      // the last budget check decides whether the cycle was cut short
      ensures outcomes[|outcomes| - 1] == MaxRuntimeExceeded <==>
        Exceeded(timer.startedAt.value, timer.clock.readings(timer.clock.ticks - 1))
      ensures Traced(outcomes, trace, marks, failures, old(db.rows), db.rows, old(db.statements), db.statements)
      ensures RanInOrder(strategies, outcomes, failures, trace, marks, old(EmptyBatches(strategies)), db.faults)
      // the k-th strategy checked the budget from reading clocks[k] to reading clocks[k + 1] - 1
      ensures |clocks| == |outcomes| + 1 && clocks[0] == old(timer.clock.ticks) && clocks[|outcomes|] == timer.clock.ticks
      ensures BudgetedInOrder(strategies, outcomes, trace, clocks, timer.startedAt.value, timer.clock.readings)
    {
      ghost var rows0, empties := db.rows, EmptyBatches(strategies);
      outcomes, trace, marks, failures, clocks := [], [db.rows], [db.statements], [], [timer.clock.ticks];
      var k, stopped := 0, false;
      while k < |strategies| && !stopped
        invariant k <= |strategies| && (stopped ==> 0 < k)
        invariant ValidStrategies(strategies)
        invariant timer.clock.ticks >= old(timer.clock.ticks) + k
        invariant |outcomes| == k
        invariant k > 0 ==> (outcomes[k - 1] == MaxRuntimeExceeded <==>
          Exceeded(timer.startedAt.value, timer.clock.readings(timer.clock.ticks - 1)))
        invariant forall j :: 0 <= j < k ==> (outcomes[j] == MaxRuntimeExceeded <==> stopped && j == k - 1)
        invariant multiset(db.rows) <= multiset(rows0)
        invariant forall d :: d in rows0 && OutsideAll(strategies[..k], d) ==> d in db.rows
        invariant stopped ==> forall d :: d in rows0 && OutsideAll(strategies, d) ==> d in db.rows
        invariant Traced(outcomes, trace, marks, failures, rows0, db.rows, old(db.statements), db.statements)
        invariant |clocks| == k + 1 && clocks[0] == old(timer.clock.ticks) && clocks[k] == timer.clock.ticks
        invariant BudgetedInOrder(strategies, outcomes, trace, clocks, timer.startedAt.value, timer.clock.readings)
        invariant RanInOrder(strategies, outcomes, failures, trace, marks, empties, db.faults)
        invariant forall j :: k <= j < |strategies| ==> EmptyBatch(strategies[j]) == empties[j]
      {
        var result, failure := RunStrategy(k, db, rows0, outcomes, failures, trace, marks, clocks, empties);
        outcomes, trace, marks, failures := outcomes + [result], trace + [db.rows], marks + [db.statements], failures + [failure];
        clocks := clocks + [timer.clock.ticks];
        stopped, k := result == MaxRuntimeExceeded, k + 1;
      }
      if !stopped {
        assert strategies[..|strategies|] == strategies;
      }
    }
  }

  /**
   * `PerfherderCycler.__init__`, guarded by `has_valid_explicit_days`: a
   * refused override raises before anything is built; otherwise the four
   * strategies are fabricated and a fresh, unstarted timer is attached.
   */
  method NewPerfherderCycler(chunkSize: nat, sleepTime: int, days: Option<int>, siteHostname: string,
                             clock: Clock, registry: Registry)
    returns (r: Result<PerfherderCycler, CommandError>)
    modifies clock
    ensures !HasValidExplicitDays(days, siteHostname) ==> r == Failure(ValueError) && clock.ticks == old(clock.ticks)
    ensures HasValidExplicitDays(days, siteHostname) ==>
      && r.Success? && fresh(r.value) && fresh(r.value.timer)
      && r.value.Valid() && Fabricated(r.value.strategies, chunkSize, days, clock.readings, old(clock.ticks))
      && r.value.chunkSize == chunkSize && r.value.sleepTime == sleepTime && r.value.registry == registry
      && r.value.timer.clock == clock && r.value.timer.startedAt.None?
  {
    if !HasValidExplicitDays(days, siteHostname) {
      return Failure(ValueError);
    }
    var strategies := FabricateAllStrategies(chunkSize, days, siteHostname, clock, registry);
    var timer := new MaxRuntime(clock);
    var cycler := new PerfherderCycler(chunkSize, sleepTime, strategies.value, timer, registry);
    r := Success(cycler);
  }

  /** The store, the timer and its clock are never strategy objects. */
  lemma NotAStrategy(ss: seq<Strategy>, db: Database, timer: MaxRuntime)
    ensures db !in Objects(ss) && timer !in Objects(ss) && timer.clock !in Objects(ss)
  {
  }

  /** A row no strategy may delete is in particular outside every strategy of a prefix. */
  lemma OutsideAllPrefix(ss: seq<Strategy>, n: nat)
    requires n <= |ss|
    ensures forall d :: OutsideAll(ss, d) ==> OutsideAll(ss[..n], d)
  {
    forall d, s | OutsideAll(ss, d) && s in ss[..n] ensures !Matches(EnvelopeOf(s), d) {
      assert s in ss;
    }
  }
}

=== FILE: perf_data.dfy ===
/**
 * The `performance_datum` table as a sequence of rows, the WHERE clauses the
 * removal strategies issue against it, and the effect of one
 * `DELETE ... WHERE ... LIMIT n` statement.
 */
module PerfData {
  import opened Wrappers
  import opened Seqs

  const SecondsPerDay: int := 86400

  /** One `performance_datum` row; timestamps are seconds. */
  datatype Datum = Datum(id: int, repositoryId: int, signatureId: int, pushTimestamp: int)

  /** One `performance_signature` row. */
  datatype Signature = Signature(id: int, repositoryId: int, lastUpdated: int)

  /** The read-only lookups: repository ids by name, and every performance signature. */
  datatype Registry = Registry(repositoryIds: map<string, int>, signatures: seq<Signature>)

  /** What a statement (or a query) raises instead of completing. */
  datatype Error =
    | EmptyQuerySet          // `[0]` on an empty query set (IndexError)
    | OperationalError       // the store fails the statement
    | MalformedStatement     // an empty `IN ()` or `NOT IN ()` list is a syntax error
    | RepositoryDoesNotExist // `Repository.objects.get(name=...)` found nothing
    | NoCandidates           // LookupError: no (new) signature left to target

  /** The repository/signature part of a WHERE clause. */
  datatype Scope =
    | AllRepositories
      // repository_id = repository AND (signature_id = s1 OR ... )
    | RepositoryAndSignatures(repository: int, signatures: seq<int>)
      // repository_id NOT IN excluded
    | RepositoriesExcept(excluded: seq<int>)
      // (repository_id, signature_id) is that of one of the targets
    | SignaturesOf(targets: seq<Signature>)

  /** A WHERE clause: the scope and `push_timestamp <= cutoff`. */
  datatype Where = Where(scope: Scope, cutoff: int)

  predicate OfSignature(d: Datum, s: Signature)
  {
    d.repositoryId == s.repositoryId && d.signatureId == s.id
  }

  predicate InScope(scope: Scope, d: Datum)
  {
    match scope
    case AllRepositories => true
    case RepositoryAndSignatures(repository, signatures) =>
      d.repositoryId == repository && d.signatureId in signatures
    case RepositoriesExcept(excluded) => d.repositoryId !in excluded
    case SignaturesOf(targets) => exists s :: s in targets && OfSignature(d, s)
  }

  /** The cutoff comparison is inclusive: a row pushed exactly at the cutoff is expired. */
  predicate Matches(w: Where, d: Datum)
  {
    d.pushTimestamp <= w.cutoff && InScope(w.scope, d)
  }

  /** An empty `IN`/`NOT IN` list renders as `()`, which the store rejects. */
  predicate WellFormed(w: Where)
  {
    match w.scope
    case RepositoryAndSignatures(_, signatures) => signatures != []
    case RepositoriesExcept(excluded) => excluded != []
    case _ => true
  }

  /** The rows a statement with clause `w` may delete, in table order. */
  function Matched(rows: seq<Datum>, w: Where): (r: seq<Datum>)
    ensures forall d {:trigger d in r} :: d in r <==> d in rows && Matches(w, d)
    ensures |r| <= |rows|
  {
    if rows == [] then []
    else (if Matches(w, rows[0]) then [rows[0]] else []) + Matched(rows[1..], w)
  }

  /** No row matches, so the statement has nothing to delete. */
  lemma {:induction false} NoneMatched(rows: seq<Datum>, w: Where)
    requires forall d :: d in rows ==> !Matches(w, d)
    ensures Matched(rows, w) == []
  {
    if rows != [] {
      NoneMatched(rows[1..], w);
    }
  }

  /** The rows a statement with clause `w` leaves alone, in table order. */
  function Unmatched(rows: seq<Datum>, w: Where): (r: seq<Datum>)
    ensures forall d {:trigger d in r} :: d in r <==> d in rows && !Matches(w, d)
  {
    if rows == [] then []
    else (if Matches(w, rows[0]) then [] else [rows[0]]) + Unmatched(rows[1..], w)
  }

  /**
   * `DELETE FROM performance_datum WHERE w LIMIT limit`: the first `limit`
   * matching rows go, every other row stays where it was.
   */
  function DeleteLimited(rows: seq<Datum>, w: Where, limit: nat): (r: seq<Datum>)
    ensures |r| <= |rows|
    // `LIMIT 0` deletes nothing
    ensures limit == 0 ==> r == rows
  {
    if rows == [] then []
    else if limit > 0 && Matches(w, rows[0]) then DeleteLimited(rows[1..], w, limit - 1)
    else [rows[0]] + DeleteLimited(rows[1..], w, limit)
  }

  /** How many rows one such statement deletes: `cursor.rowcount`. */
  function DeletedCount(rows: seq<Datum>, w: Where, limit: nat): nat
  {
    Min(limit, |Matched(rows, w)|)
  }

  /** The statement deletes exactly `min(limit, #matching)` rows ... */
  lemma {:induction false} DeleteLimitedLength(rows: seq<Datum>, w: Where, limit: nat)
    ensures |DeleteLimited(rows, w, limit)| == |rows| - DeletedCount(rows, w, limit)
  {
    if rows != [] {
      if limit > 0 && Matches(w, rows[0]) {
        DeleteLimitedLength(rows[1..], w, limit - 1);
      } else {
        DeleteLimitedLength(rows[1..], w, limit);
      }
    }
  }

  /** ... keeps every row it does not select, in place ... */
  lemma {:induction false} DeleteLimitedKeeps(rows: seq<Datum>, w: Where, limit: nat)
    ensures Unmatched(DeleteLimited(rows, w, limit), w) == Unmatched(rows, w)
  {
    if rows != [] {
      if limit > 0 && Matches(w, rows[0]) {
        DeleteLimitedKeeps(rows[1..], w, limit - 1);
      } else {
        DeleteLimitedKeeps(rows[1..], w, limit);
        var r := DeleteLimited(rows, w, limit);
        assert r[0] == rows[0] && r[1..] == DeleteLimited(rows[1..], w, limit);
      }
    }
  }

  /** ... takes the matching rows from the front ... */
  lemma {:induction false} DeleteLimitedTakesFront(rows: seq<Datum>, w: Where, limit: nat)
    ensures Matched(DeleteLimited(rows, w, limit), w) == Matched(rows, w)[DeletedCount(rows, w, limit)..]
  {
    if rows != [] {
      if limit > 0 && Matches(w, rows[0]) {
        DeleteLimitedTakesFront(rows[1..], w, limit - 1);
        var m := Matched(rows[1..], w);
        var k := DeletedCount(rows[1..], w, limit - 1);
        assert Matched(rows, w) == [rows[0]] + m;
        assert DeletedCount(rows, w, limit) == k + 1;
        DropFront(rows[0], m, k);
      } else {
        DeleteLimitedTakesFront(rows[1..], w, limit);
        TakesFrontKept(rows, w, limit);
      }
    }
  }

  /** The step of `DeleteLimitedTakesFront` when the first row is kept. */
  lemma TakesFrontKept(rows: seq<Datum>, w: Where, limit: nat)
    requires rows != [] && !(limit > 0 && Matches(w, rows[0]))
    requires Matched(DeleteLimited(rows[1..], w, limit), w)
      == Matched(rows[1..], w)[DeletedCount(rows[1..], w, limit)..]
    ensures Matched(DeleteLimited(rows, w, limit), w) == Matched(rows, w)[DeletedCount(rows, w, limit)..]
  {
    var m := Matched(rows[1..], w);
    MatchedCons(rows[0], DeleteLimited(rows[1..], w, limit), w);
    if Matches(w, rows[0]) {
      assert Matched(rows, w) == [rows[0]] + m;
      assert m[0..] == m;
    } else {
      assert Matched(rows, w) == m;
    }
  }

  lemma MatchedCons(x: Datum, s: seq<Datum>, w: Where)
    ensures Matched([x] + s, w) == (if Matches(w, x) then [x] else []) + Matched(s, w)
  {
    assert ([x] + s)[1..] == s;
  }

  /** ... and adds nothing. */
  lemma {:induction false} DeleteLimitedShrinks(rows: seq<Datum>, w: Where, limit: nat)
    ensures multiset(DeleteLimited(rows, w, limit)) <= multiset(rows)
  {
    if rows != [] {
      assert rows == [rows[0]] + rows[1..];
      if limit > 0 && Matches(w, rows[0]) {
        DeleteLimitedShrinks(rows[1..], w, limit - 1);
      } else {
        DeleteLimitedShrinks(rows[1..], w, limit);
      }
    }
  }

  /** A statement that deletes nothing leaves the table exactly as it was. */
  lemma {:induction false} DeleteNothing(rows: seq<Datum>, w: Where, limit: nat)
    requires DeletedCount(rows, w, limit) == 0
    ensures DeleteLimited(rows, w, limit) == rows
  {
    if rows != [] {
      assert !(limit > 0 && Matches(w, rows[0]));
      DeleteNothing(rows[1..], w, limit);
      assert rows == [rows[0]] + rows[1..];
    }
  }

  /** `w` selects no row that `envelope` does not select. */
  ghost predicate Covers(envelope: Where, w: Where)
  {
    forall d :: Matches(w, d) ==> Matches(envelope, d)
  }

  /**
   * `after` is `before` less some rows that `envelope` selects: no row
   * appears, and the rows outside the envelope are exactly as they were.
   */
  ghost predicate RemovesOnly(before: seq<Datum>, after: seq<Datum>, envelope: Where)
  {
    multiset(after) <= multiset(before) && Unmatched(after, envelope) == Unmatched(before, envelope)
  }

  lemma {:induction false} UnmatchedOfNarrower(rows: seq<Datum>, w: Where, envelope: Where)
    requires Covers(envelope, w)
    ensures Unmatched(Unmatched(rows, w), envelope) == Unmatched(rows, envelope)
  {
    if rows != [] {
      UnmatchedOfNarrower(rows[1..], w, envelope);
      var head := if Matches(w, rows[0]) then [] else [rows[0]];
      assert Unmatched(rows, w) == head + Unmatched(rows[1..], w);
      UnmatchedAppend(head, Unmatched(rows[1..], w), envelope);
    }
  }

  lemma {:induction false} UnmatchedAppend(a: seq<Datum>, b: seq<Datum>, w: Where)
    ensures Unmatched(a + b, w) == Unmatched(a, w) + Unmatched(b, w)
  {
    if a == [] {
      assert a + b == b;
    } else {
      assert (a + b)[0] == a[0];
      assert (a + b)[1..] == a[1..] + b;
      UnmatchedAppend(a[1..], b, w);
      ConcatAssoc(if Matches(w, a[0]) then [] else [a[0]], Unmatched(a[1..], w), Unmatched(b, w));
    }
  }

  /** A delete whose clause lies inside the envelope removes only rows of the envelope. */
  lemma DeleteWithin(rows: seq<Datum>, w: Where, limit: nat, envelope: Where)
    requires Covers(envelope, w)
    ensures RemovesOnly(rows, DeleteLimited(rows, w, limit), envelope)
  {
    var r := DeleteLimited(rows, w, limit);
    DeleteLimitedKeeps(rows, w, limit);
    DeleteLimitedShrinks(rows, w, limit);
    UnmatchedOfNarrower(r, w, envelope);
    UnmatchedOfNarrower(rows, w, envelope);
  }

  lemma RemovesOnlyReflexive(rows: seq<Datum>, envelope: Where)
    ensures RemovesOnly(rows, rows, envelope)
  {
  }

  lemma RemovesOnlyTransitive(a: seq<Datum>, b: seq<Datum>, c: seq<Datum>, envelope: Where)
    requires RemovesOnly(a, b, envelope) && RemovesOnly(b, c, envelope)
    ensures RemovesOnly(a, c, envelope)
  {
  }

  /** Removing only rows of a narrower envelope removes only rows of a wider one. */
  lemma RemovesOnlyWiden(a: seq<Datum>, b: seq<Datum>, narrow: Where, wide: Where)
    requires RemovesOnly(a, b, narrow) && Covers(wide, narrow)
    ensures RemovesOnly(a, b, wide)
  {
    UnmatchedOfNarrower(a, narrow, wide);
    UnmatchedOfNarrower(b, narrow, wide);
  }

  /** Removing rows never makes the table longer. */
  lemma RemovesOnlyShrinks(a: seq<Datum>, b: seq<Datum>, envelope: Where)
    requires RemovesOnly(a, b, envelope)
    ensures |b| <= |a|
  {
    var gone := multiset(a) - multiset(b);
    assert multiset(a) == multiset(b) + gone;
    assert |multiset(a)| == |multiset(b)| + |gone|;
  }

  /** Every row outside the envelope survives. */
  lemma RemovesOnlyKeeps(a: seq<Datum>, b: seq<Datum>, envelope: Where, d: Datum)
    requires RemovesOnly(a, b, envelope)
    requires d in a && !Matches(envelope, d)
    ensures d in b
  {
    assert d in Unmatched(a, envelope);
  }

  /** A row pushed after a strategy's cutoff is never removed by it. */
  lemma LiveRowsSurvive(a: seq<Datum>, b: seq<Datum>, envelope: Where, d: Datum)
    requires RemovesOnly(a, b, envelope)
    requires d in a && d.pushTimestamp > envelope.cutoff
    ensures d in b
  {
    RemovesOnlyKeeps(a, b, envelope, d);
  }

  /** Removal by several statements in a row stays within `envelope`. */
  lemma DeleteChainWithin(rows: seq<Datum>, w1: Where, n1: nat, w2: Where, n2: nat, envelope: Where)
    requires Covers(envelope, w1) && Covers(envelope, w2)
    ensures RemovesOnly(rows, DeleteLimited(DeleteLimited(rows, w1, n1), w2, n2), envelope)
  {
    var mid := DeleteLimited(rows, w1, n1);
    DeleteWithin(rows, w1, n1, envelope);
    DeleteWithin(mid, w2, n2, envelope);
    RemovesOnlyTransitive(rows, mid, DeleteLimited(mid, w2, n2), envelope);
  }

  // ---------------------------------------------------------------------
  // _find_ideal_chunk_size

  /** Not yet expired, and outside the excluded repositories. */
  predicate Live(d: Datum, cutoff: int, excluded: seq<int>)
  {
    d.pushTimestamp > cutoff && d.repositoryId !in excluded
  }

  /** `filter(push_timestamp__gt=cutoff).exclude(repository_id__in=excluded).order_by('-id')[0].id` */
  function NewestLiveId(rows: seq<Datum>, cutoff: int, excluded: seq<int>): (r: Option<int>)
    ensures r.None? <==> forall d :: d in rows ==> !Live(d, cutoff, excluded)
    ensures r.Some? ==> exists d :: d in rows && Live(d, cutoff, excluded) && d.id == r.value
    ensures r.Some? ==> forall d :: d in rows && Live(d, cutoff, excluded) ==> d.id <= r.value
  {
    if rows == [] then None
    else
      assert forall d :: d in rows ==> d == rows[0] || d in rows[1..];
      var rest := NewestLiveId(rows[1..], cutoff, excluded);
      if !Live(rows[0], cutoff, excluded) then rest
      else if rest.None? || rest.value < rows[0].id then Some(rows[0].id)
      else rest
  }

  /** Expired rows outside the excluded repositories whose id is at most `maxId`. */
  predicate OlderThanNewest(d: Datum, cutoff: int, excluded: seq<int>, maxId: int)
  {
    d.pushTimestamp <= cutoff && d.id <= maxId && d.repositoryId !in excluded
  }

  function CountOlder(rows: seq<Datum>, cutoff: int, excluded: seq<int>, maxId: int): (n: nat)
    ensures n <= |rows|
    ensures n == 0 <==> forall d :: d in rows ==> !OlderThanNewest(d, cutoff, excluded, maxId)
  {
    if rows == [] then 0
    else
      assert forall d :: d in rows ==> d == rows[0] || d in rows[1..];
      (if OlderThanNewest(rows[0], cutoff, excluded, maxId) then 1 else 0)
        + CountOlder(rows[1..], cutoff, excluded, maxId)
  }

  /**
   * `_find_ideal_chunk_size`: how many expired rows lie at or below the
   * newest live row's id, capped at `chunkSize` (`len(older[:chunk_size])`),
   * falling back to `chunkSize` when that is 0 (`len(...) or chunk_size`).
   * With no live row at all the `[0]` lookup raises.
   */
  function IdealChunkSize(rows: seq<Datum>, cutoff: int, excluded: seq<int>, chunkSize: nat): (r: Result<nat, Error>)
    ensures r.Failure? <==> forall d :: d in rows ==> !Live(d, cutoff, excluded)
    ensures r.Failure? ==> r.error == EmptyQuerySet
    ensures r.Success? ==> r.value <= chunkSize
    ensures r.Success? && chunkSize >= 1 ==> r.value >= 1
    ensures r.Success? && r.value < chunkSize ==>
      exists d :: d in rows && Live(d, cutoff, excluded) &&
        r.value == CountOlder(rows, cutoff, excluded, d.id)
    // below the cap, the count is taken at the newest live row's id
    ensures r.Success? && r.value < chunkSize ==>
      r.value == CountOlder(rows, cutoff, excluded, NewestLiveId(rows, cutoff, excluded).value)
    // `len(...) or chunk_size`: nothing older than the newest live row falls back to the cap
    ensures r.Success? && CountOlder(rows, cutoff, excluded, NewestLiveId(rows, cutoff, excluded).value) == 0 ==>
      r.value == chunkSize
    // a non-zero count is used as is up to the cap, and the cap above it
    ensures r.Success? && 0 < CountOlder(rows, cutoff, excluded, NewestLiveId(rows, cutoff, excluded).value) <= chunkSize ==>
      r.value == CountOlder(rows, cutoff, excluded, NewestLiveId(rows, cutoff, excluded).value)
    ensures r.Success? && CountOlder(rows, cutoff, excluded, NewestLiveId(rows, cutoff, excluded).value) > chunkSize ==>
      r.value == chunkSize
  {
    match NewestLiveId(rows, cutoff, excluded)
    case None => Failure(EmptyQuerySet)
    case Some(maxId) =>
      var older := Min(CountOlder(rows, cutoff, excluded, maxId), chunkSize);
      Success(if older == 0 then chunkSize else older)
  }
}

=== FILE: scopes.dfy ===
/**
 * Taskcluster scope expressions: a scope set satisfies a scope string when
 * one of its scopes matches it as a pattern (a trailing '*' matches any
 * suffix), and satisfies an `AllOf`/`AnyOf` tree by the usual all/any rule.
 */
module Scopes {
  import opened Wrappers

  /** A scope expression: a scope string, or a dictionary with optional `AllOf` and `AnyOf` lists. */
  datatype Expr = Scope(scope: string) | Dict(allOf: Entry, anyOf: Entry)

  /** One key of a dictionary expression: missing, or a list of sub-expressions. */
  datatype Entry = Absent | Present(exprs: seq<Expr>)

  /** The scope-set argument: a list of scopes, or anything else. */
  datatype ScopeSetArg = ScopeList(scopes: seq<string>) | NotAList

  datatype ScopeError = TypeError

  /** `s` starts with `prefix`. */
  predicate IsPrefix(prefix: string, s: string)
  {
    |prefix| <= |s| && s[..|prefix|] == prefix
  }

  /** Python's `s.find(sub, from)`: the lowest index at or after `from` where `sub` occurs, or -1. */
  function FindFrom(s: string, sub: string, from: nat): (r: int)
    ensures r == -1 || (from <= r && r + |sub| <= |s| && s[r..r + |sub|] == sub)
    ensures from + |sub| <= |s| && s[from..from + |sub|] == sub ==> r == from
    decreases |s| - from
  {
    if from + |sub| > |s| then -1
    else if s[from..from + |sub|] == sub then from
    else FindFrom(s, sub, from + 1)
  }

  /**
   * `find` returns the first occurrence: whenever `sub` occurs at some `i`
   * at or after `from`, the result is an occurrence no later than `i`
   * (so -1 comes back only when `sub` does not occur at all).
   */
  lemma {:induction false} FindFromLowest(s: string, sub: string, from: nat, i: nat)
    requires from <= i && i + |sub| <= |s| && s[i..i + |sub|] == sub
    ensures FindFrom(s, sub, from) != -1 && FindFrom(s, sub, from) <= i
    decreases i - from
  {
    if s[from..from + |sub|] != sub {
      FindFromLowest(s, sub, from + 1, i);
    }
  }

  /** `s.find(sub)` */
  function Find(s: string, sub: string): int
  {
    FindFrom(s, sub, 0)
  }

  /** `s.find(prefix) == 0` is exactly "s starts with prefix". */
  lemma FindZeroIffPrefix(s: string, prefix: string)
    ensures Find(s, prefix) == 0 <==> IsPrefix(prefix, s)
  {
    if IsPrefix(prefix, s) {
      assert s[0..|prefix|] == s[..|prefix|];
    }
  }

  /** The pattern ends in '*'. */
  predicate EndsWithStar(pattern: string)
  {
    |pattern| >= 1 && pattern[|pattern| - 1] == '*'
  }

  /**
   * `patternMatch(pattern, scope)`, with the trailing-'*' test read as
   * "the last character is '*'" (see `PatternMatchAsWritten` for the
   * regular expression the source uses).
   */
  function PatternMatch(pattern: string, scope: string): (r: bool)
    ensures scope == pattern ==> r
    // any other match is a prefix match under a trailing '*'
    ensures r && scope != pattern ==> EndsWithStar(pattern) && IsPrefix(pattern[..|pattern| - 1], scope)
  {
    if scope == pattern then true
    else if EndsWithStar(pattern) then
      FindZeroIffPrefix(scope, pattern[..|pattern| - 1]);
      Find(scope, pattern[..|pattern| - 1]) == 0
    else false
  }

  /** A scope always matches itself. */
  lemma PatternMatchExact(pattern: string)
    ensures PatternMatch(pattern, pattern)
  {
  }

  /** A pattern ending in '*' matches exactly the scopes that start with the rest of it. */
  lemma StarIffPrefix(pattern: string, scope: string)
    requires EndsWithStar(pattern)
    ensures PatternMatch(pattern, scope) <==> IsPrefix(pattern[..|pattern| - 1], scope)
  {
    var stem := pattern[..|pattern| - 1];
    FindZeroIffPrefix(scope, stem);
    if scope == pattern {
      assert scope[..|stem|] == stem;
    }
  }

  /** The bare pattern '*' matches every scope. */
  lemma BareStarMatchesAll(scope: string)
    ensures PatternMatch("*", scope)
  {
    StarIffPrefix("*", scope);
    assert scope[..0] == [];
  }

  /** Without a trailing '*' a pattern matches only itself. */
  lemma NoStarMeansEqual(pattern: string, scope: string)
    requires !EndsWithStar(pattern)
    ensures PatternMatch(pattern, scope) <==> scope == pattern
  {
  }

  /** `any(patternMatch(s, scope) for s in scopes)`: each scope of the set plays the pattern. */
  function AnyMatch(scopes: seq<string>, scope: string): (r: bool)
    ensures scope in scopes ==> r
    ensures scopes == [] ==> !r
  {
    if scopes == [] then false
    else PatternMatch(scopes[0], scope) || AnyMatch(scopes[1..], scope)
  }

  /** `AnyMatch` holds exactly when some scope of the set matches. */
  lemma {:induction false} AnyMatchIff(scopes: seq<string>, scope: string)
    ensures AnyMatch(scopes, scope) <==> exists p :: p in scopes && PatternMatch(p, scope)
  {
    if scopes != [] {
      AnyMatchIff(scopes[1..], scope);
      assert scopes == [scopes[0]] + scopes[1..];
    }
  }

  /** `isSatisfied(expr)` for a given scope set. */
  function IsSatisfied(scopes: seq<string>, e: Expr): (r: bool)
    // a scope the set holds verbatim is satisfied
    ensures e.Scope? && e.scope in scopes ==> r
    // `all([])` holds: an empty `AllOf` is satisfied
    ensures e.Dict? && e.allOf == Present([]) ==> r
    // a dictionary with neither key, or only an empty `AnyOf`, is not
    ensures e.Dict? && e.allOf.Absent? && (e.anyOf.Absent? || e.anyOf.exprs == []) ==> !r
    decreases e
  {
    match e
    case Scope(s) => AnyMatch(scopes, s)
    case Dict(allOf, anyOf) =>
      (allOf.Present? && forall k :: 0 <= k < |allOf.exprs| ==> IsSatisfied(scopes, allOf.exprs[k]))
      || (anyOf.Present? && exists k :: 0 <= k < |anyOf.exprs| && IsSatisfied(scopes, anyOf.exprs[k]))
  }

  /** `satisfiesExpression(scopeset, expression)`: anything but a list is refused. */
  function SatisfiesExpression(scopeSet: ScopeSetArg, expression: Expr): (r: Result<bool, ScopeError>)
    ensures scopeSet.NotAList? <==> r == Failure(TypeError)
  {
    match scopeSet
    case NotAList => Failure(TypeError)
    case ScopeList(scopes) => Success(IsSatisfied(scopes, expression))
  }

  /** A scope string is satisfied iff some scope of the set matches it as a pattern. */
  lemma ScopeSatisfied(scopes: seq<string>, s: string)
    ensures IsSatisfied(scopes, Scope(s)) <==> exists p :: p in scopes && PatternMatch(p, s)
  {
    AnyMatchIff(scopes, s);
  }

  /** The empty scope set satisfies no scope string. */
  lemma EmptyScopeSetSatisfiesNoScope(s: string)
    ensures !IsSatisfied([], Scope(s))
  {
  }

  /** An empty `AllOf` is satisfied by any scope set. */
  lemma EmptyAllOf(scopes: seq<string>, anyOf: Entry)
    ensures IsSatisfied(scopes, Dict(Present([]), anyOf))
  {
  }

  /** An empty `AnyOf` alone is never satisfied. */
  lemma EmptyAnyOf(scopes: seq<string>)
    ensures !IsSatisfied(scopes, Dict(Absent, Present([])))
  {
  }

  /** A dictionary with neither key is never satisfied. */
  lemma NeitherKey(scopes: seq<string>)
    ensures !IsSatisfied(scopes, Dict(Absent, Absent))
  {
  }

  /** A failing `AllOf` falls through to the `AnyOf` of the same dictionary. */
  lemma AllOfFallsThrough(scopes: seq<string>, allOf: seq<Expr>, anyOf: seq<Expr>)
    requires !IsSatisfied(scopes, Dict(Present(allOf), Absent))
    ensures IsSatisfied(scopes, Dict(Present(allOf), Present(anyOf))) == IsSatisfied(scopes, Dict(Absent, Present(anyOf)))
  {
  }

  /** Adding scopes to the set never turns a satisfied expression unsatisfied. */
  lemma {:induction false} Monotone(scopes: seq<string>, more: seq<string>, e: Expr)
    requires forall p :: p in scopes ==> p in more
    requires IsSatisfied(scopes, e)
    ensures IsSatisfied(more, e)
    decreases e
  {
    match e
    case Scope(s) =>
      ScopeSatisfied(scopes, s);
      ScopeSatisfied(more, s);
    case Dict(allOf, anyOf) =>
      if allOf.Present? && forall k :: 0 <= k < |allOf.exprs| ==> IsSatisfied(scopes, allOf.exprs[k]) {
        forall k | 0 <= k < |allOf.exprs| ensures IsSatisfied(more, allOf.exprs[k]) {
          Monotone(scopes, more, allOf.exprs[k]);
        }
      } else {
        var k :| 0 <= k < |anyOf.exprs| && IsSatisfied(scopes, anyOf.exprs[k]);
        Monotone(scopes, more, anyOf.exprs[k]);
      }
  }

  /** Only the set of scopes matters: neither their order nor repetitions. */
  lemma SameScopesSameAnswer(scopes: seq<string>, other: seq<string>, e: Expr)
    requires forall p :: p in scopes <==> p in other
    ensures IsSatisfied(scopes, e) == IsSatisfied(other, e)
  {
    if IsSatisfied(scopes, e) {
      Monotone(scopes, other, e);
    }
    if IsSatisfied(other, e) {
      Monotone(other, scopes, e);
    }
  }

  /** A scope set holding '*' satisfies every scope string. */
  lemma StarSatisfiesEveryScope(scopes: seq<string>, s: string)
    requires "*" in scopes
    ensures IsSatisfied(scopes, Scope(s))
  {
    BareStarMatchesAll(s);
    ScopeSatisfied(scopes, s);
  }

  /**
   * `re.search(r"\*$", pattern)`: '$' also matches just before a final
   * newline, so a pattern ending in "*\n" passes the test too.
   */
  predicate RegexStarAtEnd(pattern: string)
  {
    EndsWithStar(pattern)
    || (|pattern| >= 2 && pattern[|pattern| - 2] == '*' && pattern[|pattern| - 1] == '\n')
  }

  /** `patternMatch` exactly as written, with the regular-expression test. */
  function PatternMatchAsWritten(pattern: string, scope: string): (r: bool)
    ensures scope == pattern ==> r
    // any other match drops only the last character, even when that is the newline after '*'
    ensures r && scope != pattern ==> RegexStarAtEnd(pattern) && IsPrefix(pattern[..|pattern| - 1], scope)
  {
    if scope == pattern then true
    else if RegexStarAtEnd(pattern) then
      FindZeroIffPrefix(scope, pattern[..|pattern| - 1]);
      Find(scope, pattern[..|pattern| - 1]) == 0
    else false
  }

  /** The two readings agree on every pattern that does not end in a newline. */
  lemma AsWrittenAgrees(pattern: string, scope: string)
    requires |pattern| == 0 || pattern[|pattern| - 1] != '\n'
    ensures PatternMatchAsWritten(pattern, scope) == PatternMatch(pattern, scope)
  {
  }

  /**
   * The pattern "a*\n" has no trailing '*' and differs from the scope
   * "a*b", yet the source lets it match, as a prefix pattern "a*".
   */
  lemma NewlinePatternMatches()
    ensures PatternMatchAsWritten("a*\n", "a*b")
    ensures !PatternMatch("a*\n", "a*b")
  {
    var pattern, scope := "a*\n", "a*b";
    assert pattern[..|pattern| - 1] == "a*";
    assert scope[0..2] == "a*";
    assert !EndsWithStar(pattern);
    assert scope != pattern by {
      assert scope[2] != pattern[2];
    }
  }
}

=== FILE: seqs.dfy ===
/** Sequence helpers: minimum/maximum, ordering by an integer key, consecutive chunks. */
module Seqs {

  function Min(a: int, b: int): int
  {
    if a <= b then a else b
  }

  /** The largest element of a non-empty sequence (Python's `max`). */
  function MaxOf(s: seq<int>): (r: int)
    requires |s| > 0
    ensures r in s
    ensures forall x :: x in s ==> x <= r
  {
    if |s| == 1 then s[0]
    else
      var rest := MaxOf(s[1..]);
      assert forall x :: x in s ==> x == s[0] || x in s[1..];
      if s[0] >= rest then s[0] else rest
  }

  lemma ConcatAssoc<T>(a: seq<T>, b: seq<T>, c: seq<T>)
    ensures (a + b) + c == a + (b + c)
  {
  }

  lemma ConcatEmpty<T>(s: seq<T>)
    ensures s + [] == s
  {
  }

  lemma DropFront<T>(x: T, s: seq<T>, k: nat)
    requires k <= |s|
    ensures ([x] + s)[k + 1..] == s[k..]
  {
  }

  /** `s` is ordered by `key`, non-decreasing. */
  ghost predicate SortedBy<T>(s: seq<T>, key: T -> int)
  {
    forall i, j :: 0 <= i < j < |s| ==> key(s[i]) <= key(s[j])
  }

  /** Inserts `x` before the first element whose key is not smaller. */
  function InsertBy<T>(x: T, s: seq<T>, key: T -> int): seq<T>
  {
    if s == [] then [x]
    else if key(x) <= key(s[0]) then [x] + s
    else [s[0]] + InsertBy(x, s[1..], key)
  }

  /** A stable sort by an integer key: the SQL `ORDER BY key` of a query. */
  function SortBy<T>(s: seq<T>, key: T -> int): seq<T>
  {
    if s == [] then [] else InsertBy(s[0], SortBy(s[1..], key), key)
  }

  /** The elements of `s` that satisfy `p`, in order (a SQL `WHERE p`). */
  function Filter<T>(s: seq<T>, p: T -> bool): seq<T>
  {
    if s == [] then []
    else (if p(s[0]) then [s[0]] else []) + Filter(s[1..], p)
  }

  /** Insertion adds exactly `x`. */
  lemma {:induction false} InsertByAdds<T>(x: T, s: seq<T>, key: T -> int)
    ensures multiset(InsertBy(x, s, key)) == multiset(s) + multiset{x}
  {
    if s != [] {
      assert s == [s[0]] + s[1..];
      if key(x) > key(s[0]) {
        InsertByAdds(x, s[1..], key);
      }
    }
  }

  /** Insertion keeps a sequence ordered. */
  lemma {:induction false} InsertByOrdered<T>(x: T, s: seq<T>, key: T -> int)
    requires SortedBy(s, key)
    ensures SortedBy(InsertBy(x, s, key), key)
  {
    if s == [] {
    } else if key(x) <= key(s[0]) {
      var r := [x] + s;
      forall i, j | 0 <= i < j < |r| ensures key(r[i]) <= key(r[j]) {
        if i == 0 {
          assert key(s[0]) <= key(s[j - 1]);
        } else {
          assert r[i] == s[i - 1] && r[j] == s[j - 1];
        }
      }
    } else {
      var tail := InsertBy(x, s[1..], key);
      assert SortedBy(s[1..], key) by {
        forall i, j | 0 <= i < j < |s[1..]| ensures key(s[1..][i]) <= key(s[1..][j]) {
          assert s[1..][i] == s[i + 1] && s[1..][j] == s[j + 1];
        }
      }
      InsertByOrdered(x, s[1..], key);
      InsertByAdds(x, s[1..], key);
      forall i | 0 <= i < |s[1..]| ensures key(s[0]) <= key(s[1..][i]) {
        assert s[1..][i] == s[i + 1];
      }
      LowerBoundKept(key(s[0]), x, s[1..], tail, key);
      var r := [s[0]] + tail;
      forall i, j | 0 <= i < j < |r| ensures key(r[i]) <= key(r[j]) {
        if i == 0 {
          assert r[j] == tail[j - 1];
        } else {
          assert r[i] == tail[i - 1] && r[j] == tail[j - 1];
        }
      }
    }
  }

  /** A lower bound of every key in `s` and of `key(x)` bounds every key of a rearrangement. */
  lemma LowerBoundKept<T>(b: int, x: T, s: seq<T>, t: seq<T>, key: T -> int)
    requires b <= key(x)
    requires forall i :: 0 <= i < |s| ==> b <= key(s[i])
    requires multiset(t) == multiset(s) + multiset{x}
    ensures forall i :: 0 <= i < |t| ==> b <= key(t[i])
  {
    forall i | 0 <= i < |t|
      ensures b <= key(t[i])
    {
      assert t[i] in multiset(t);
      if t[i] != x {
        assert t[i] in multiset(s);
        var j :| 0 <= j < |s| && s[j] == t[i];
      }
    }
  }

  /** The sort orders its input by key and only rearranges it. */
  lemma {:induction false} SortByOrdered<T>(s: seq<T>, key: T -> int)
    ensures SortedBy(SortBy(s, key), key)
    ensures multiset(SortBy(s, key)) == multiset(s)
  {
    if s != [] {
      SortByOrdered(s[1..], key);
      InsertByOrdered(s[0], SortBy(s[1..], key), key);
      InsertByAdds(s[0], SortBy(s[1..], key), key);
      assert s == [s[0]] + s[1..];
    }
  }

  /** The filter keeps exactly the elements that satisfy `p`. */
  lemma {:induction false} FilterMembers<T>(s: seq<T>, p: T -> bool)
    ensures forall x :: x in Filter(s, p) <==> x in s && p(x)
  {
    if s != [] {
      FilterMembers(s[1..], p);
      assert s == [s[0]] + s[1..];
    }
  }
}

=== FILE: store.dfy ===
/**
 * The store the cycling command talks to: the `performance_datum` table and
 * the alert summaries, a cursor with its `rowcount`, the wall clock and the
 * run-time budget (`MaxRuntime`).
 */
module Store {
  import opened Wrappers
  import opened PerfData

  /** A performance alert summary, with the sizes of its two alert relations. */
  datatype AlertSummary = AlertSummary(id: int, alerts: nat, relatedAlerts: nat, created: int)

  class Database {
    var rows: seq<Datum>
    var alertSummaries: seq<AlertSummary>
    /** Whether the store fails the n-th statement issued against it (an OperationalError). */
    const faults: nat -> bool
    /** How many statements have been issued so far. */
    var statements: nat

    constructor (rows: seq<Datum>, alertSummaries: seq<AlertSummary>, faults: nat -> bool)
      ensures this.rows == rows && this.alertSummaries == alertSummaries
      ensures this.faults == faults && statements == 0
    {
      this.rows := rows;
      this.alertSummaries := alertSummaries;
      this.faults := faults;
      statements := 0;
    }
  }

  /** `connection.cursor()`: a fresh cursor reports a `rowcount` of -1 until it executes. */
  class Cursor {
    const db: Database
    var rowcount: int

    constructor (db: Database)
      ensures this.db == db && rowcount == -1
    {
      this.db := db;
      rowcount := -1;
    }

    /**
     * Executes `DELETE FROM performance_datum WHERE w LIMIT limit`. A
     * malformed or failing statement raises and deletes nothing; otherwise
     * the first `limit` matching rows go and `rowcount` says how many.
     */
    method ExecuteDelete(w: Where, limit: nat) returns (outcome: Result<(), Error>)
      modifies this, db`rows, db`statements
      ensures db.statements == old(db.statements) + 1
      ensures !WellFormed(w) ==> outcome == Failure(MalformedStatement)
      ensures WellFormed(w) && db.faults(old(db.statements)) ==> outcome == Failure(OperationalError)
      ensures WellFormed(w) && !db.faults(old(db.statements)) ==> outcome.Success?
      ensures outcome.Failure? ==> db.rows == old(db.rows) && rowcount == old(rowcount)
      ensures outcome.Success? ==> db.rows == DeleteLimited(old(db.rows), w, limit)
      ensures outcome.Success? ==> rowcount == DeletedCount(old(db.rows), w, limit)
      ensures outcome.Success? ==> rowcount == |old(db.rows)| - |db.rows|
    {
      var n := db.statements;
      db.statements := n + 1;
      if !WellFormed(w) {
        return Failure(MalformedStatement);
      }
      if db.faults(n) {
        return Failure(OperationalError);
      }
      DeleteLimitedLength(db.rows, w, limit);
      rowcount := DeletedCount(db.rows, w, limit);
      db.rows := DeleteLimited(db.rows, w, limit);
      outcome := Success(());
    }
  }

  /** Statements were issued since the `since`-th one, and the store failed the last of them. */
  ghost predicate LastStatementFailed(db: Database, since: nat)
    reads db
  {
    since < db.statements && db.faults(db.statements - 1)
  }

  /** The wall clock: the n-th reading is `readings(n)`. */
  class Clock {
    const readings: nat -> int
    var ticks: nat

    constructor (readings: nat -> int)
      ensures this.readings == readings && ticks == 0
    {
      this.readings := readings;
      ticks := 0;
    }

    /** `datetime.now()` */
    method Now() returns (t: int)
      modifies this
      ensures t == readings(old(ticks)) && ticks == old(ticks) + 1
    {
      t := readings(ticks);
      ticks := ticks + 1;
    }
  }

  /** Time never goes backwards. */
  ghost predicate Monotone(readings: nat -> int)
  {
    forall i: nat, j: nat :: i <= j ==> readings(i) <= readings(j)
  }

  /** The ceiling of a `MaxRuntime()` built without arguments: its own default of 23 hours. */
  const MaxRuntimeSeconds: int := 23 * 3600

  /** The budget is spent once more than 23 hours have elapsed since the start. */
  predicate Exceeded(startedAt: int, now: int)
  {
    now - startedAt > MaxRuntimeSeconds
  }

  /** The run-time guard every chunk consults. */
  class MaxRuntime {
    const clock: Clock
    var startedAt: Option<int>

    constructor (clock: Clock)
      ensures this.clock == clock && startedAt.None?
    {
      this.clock := clock;
      startedAt := None;
    }

    /** `start_timer`: records the current time. */
    method StartTimer()
      modifies this, clock
      ensures startedAt == Some(clock.readings(old(clock.ticks)))
      ensures clock.ticks == old(clock.ticks) + 1
    {
      var now := clock.Now();
      startedAt := Some(now);
    }

    /** `quit_on_timeout`: reports (the source raises MaxRuntimeExceeded) whether the budget is spent. */
    method QuitOnTimeout() returns (exceeded: bool)
      requires startedAt.Some?
      modifies clock
      ensures clock.ticks == old(clock.ticks) + 1
      ensures exceeded == Exceeded(startedAt.value, clock.readings(old(clock.ticks)))
    {
      var now := clock.Now();
      exceeded := Exceeded(startedAt.value, now);
    }
  }

  /** Once the budget is spent, every later check on a monotone clock fails too. */
  lemma ExceededIsPermanent(readings: nat -> int, startedAt: int, i: nat, j: nat)
    requires Monotone(readings)
    requires i <= j && Exceeded(startedAt, readings(i))
    ensures Exceeded(startedAt, readings(j))
  {
  }
}

=== FILE: strategies.dfy ===
/**
 * The four removal strategies of the Perfherder cycler. Each fixes its
 * cutoff (`max_timestamp`) at construction and, per `Remove`, deletes at
 * most one LIMIT-bounded chunk of expired `performance_datum` rows inside
 * its own scope. The try and stalled strategies keep candidate cursors
 * that only ever shrink.
 */
module Strategies {
  import opened Wrappers
  import opened Seqs
  import opened PerfData
  import opened Store

  /** The retention windows, in days (`CYCLE_INTERVAL`). */
  const MainCycleInterval: int := 365
  const TryCycleInterval: int := 42
  const IrrelevantCycleInterval: int := 180
  const StalledCycleInterval: int := 120

  /** `TryDataRemoval.SIGNATURE_BULK_SIZE` */
  const SignatureBulkSize: nat := 10

  /** `IrrelevantDataRemoval.RELEVANT_REPO_NAMES` */
  const RelevantRepoNames: seq<string> :=
    ["autoland", "mozilla-central", "mozilla-beta", "fenix", "reference-browser"]

  /** The only host on which the retention windows may be overridden. */
  const PrototypeHostname: string := "treeherder-prototype2.herokuapp.com"

  /** `has_valid_explicit_days`: an explicit `days` is refused on every other host. */
  predicate HasValidExplicitDays(days: Option<int>, siteHostname: string): (r: bool)
    ensures days.None? ==> r
    ensures days.Some? ==> (r <==> siteHostname == PrototypeHostname)
  {
    days.None? || siteHostname == PrototypeHostname
  }

  /** `days or CYCLE_INTERVAL`: a missing or zero override falls back to the default. */
  function RetentionDays(days: Option<int>, cycleInterval: int): int
  {
    if days.Some? && days.value != 0 then days.value else cycleInterval
  }

  /** `datetime.now() - timedelta(days=...)` */
  function CutoffFor(now: int, days: Option<int>, cycleInterval: int): int
  {
    now - RetentionDays(days, cycleInterval) * SecondsPerDay
  }

  /** Without an override the cutoff lies exactly the default window before `now`. */
  lemma DefaultCutoff(now: int, days: Option<int>, cycleInterval: int)
    requires days.None? || days == Some(0)
    ensures CutoffFor(now, days, cycleInterval) == now - cycleInterval * SecondsPerDay
  {
  }

  /** With a non-zero override the cutoff lies that many days before `now`. */
  lemma OverriddenCutoff(now: int, days: int, cycleInterval: int)
    requires days != 0
    ensures CutoffFor(now, Some(days), cycleInterval) == now - days * SecondsPerDay
  {
  }

  /**
   * Off the prototype host the guard admits only a missing `days`, so every
   * strategy keeps its default window there. The guard tests `days is not
   * None`, so an explicit 0 is refused too, although the windows would treat
   * it as no override (`days or CYCLE_INTERVAL`).
   */
  lemma DefaultsOffPrototype(days: Option<int>, siteHostname: string, cycleInterval: int)
    requires siteHostname != PrototypeHostname
    ensures HasValidExplicitDays(days, siteHostname) <==> days.None?
    ensures HasValidExplicitDays(days, siteHostname) ==> RetentionDays(days, cycleInterval) == cycleInterval
    ensures days == Some(0) ==> !HasValidExplicitDays(days, siteHostname) && RetentionDays(days, cycleInterval) == cycleInterval
  {
  }

  // ---------------------------------------------------------------------
  // MainRemovalStrategy

  class MainRemovalStrategy {
    const chunkSize: nat
    const maxTimestamp: int

    constructor (chunkSize: nat, days: Option<int>, now: int)
      ensures this.chunkSize == chunkSize
      ensures maxTimestamp == CutoffFor(now, days, MainCycleInterval)
    {
      this.chunkSize := chunkSize;
      maxTimestamp := CutoffFor(now, days, MainCycleInterval);
    }

    function Name(): string
    {
      "main removal strategy"
    }

    /** Every expired row, in every repository. */
    function Envelope(): Where
    {
      Where(AllRepositories, maxTimestamp)
    }

    /** One `DELETE ... WHERE push_timestamp <= cutoff LIMIT ideal_chunk_size`. */
    method Remove(cursor: Cursor) returns (outcome: Result<(), Error>)
      modifies cursor, cursor.db`rows, cursor.db`statements
      ensures RemovesOnly(old(cursor.db.rows), cursor.db.rows, Envelope())
      ensures |old(cursor.db.rows)| - |cursor.db.rows| <= chunkSize
      ensures outcome.Failure? ==> cursor.db.rows == old(cursor.db.rows)
      ensures outcome.Success? ==> cursor.rowcount == |old(cursor.db.rows)| - |cursor.db.rows|
      ensures outcome == Failure(EmptyQuerySet) <==>
        forall d :: d in old(cursor.db.rows) ==> d.pushTimestamp <= maxTimestamp
      ensures outcome.Success? && chunkSize >= 1 && cursor.rowcount == 0 ==>
        Matched(cursor.db.rows, Envelope()) == []
      // the LIMIT is the ideal chunk size of the table as it was
      ensures outcome.Success? ==>
        cursor.db.rows == DeleteLimited(old(cursor.db.rows), Envelope(),
                                        IdealChunkSize(old(cursor.db.rows), maxTimestamp, [], chunkSize).value)
      // with a row to size the chunk by, only the store's own failure stops the delete
      ensures outcome == Failure(OperationalError) <==>
        (exists d :: d in old(cursor.db.rows) && d.pushTimestamp > maxTimestamp) &&
        cursor.db.faults(old(cursor.db.statements))
      ensures outcome.Failure? ==> outcome == Failure(EmptyQuerySet) || outcome == Failure(OperationalError)
      ensures cursor.db.statements >= old(cursor.db.statements)
      ensures outcome == Failure(OperationalError) ==> LastStatementFailed(cursor.db, old(cursor.db.statements))
    {
      var size := IdealChunkSize(cursor.db.rows, maxTimestamp, [], chunkSize);
      if size.Failure? {
        return Failure(size.error);
      }
      ghost var before := cursor.db.rows;
      outcome := cursor.ExecuteDelete(Envelope(), size.value);
      if outcome.Success? {
        DeleteWithin(before, Envelope(), size.value, Envelope());
        if cursor.rowcount == 0 {
          DeleteNothing(before, Envelope(), size.value);
        }
      } else {
        assert outcome == Failure(OperationalError);
      }
    }
  }

  // ---------------------------------------------------------------------
  // TryDataRemoval

  /** The ids of some signatures, in order: `values_list('id', flat=True)`. */
  function IdsOf(signatures: seq<Signature>): seq<int>
  {
    if signatures == [] then [] else [signatures[0].id] + IdsOf(signatures[1..])
  }

  lemma {:induction false} IdsOfIndex(signatures: seq<Signature>)
    ensures |IdsOf(signatures)| == |signatures|
    ensures forall i :: 0 <= i < |signatures| ==> IdsOf(signatures)[i] == signatures[i].id
  {
    if signatures != [] {
      IdsOfIndex(signatures[1..]);
    }
  }

  /** The ids of the try repository's signatures, newest (highest id) first: `order_by('-id')`. */
  function TrySignatureIds(registry: Registry, tryRepository: int): seq<int>
  {
    IdsOf(SortBy(Filter(registry.signatures, (s: Signature) => s.repositoryId == tryRepository), (s: Signature) => -s.id))
  }

  /** The list holds exactly the try repository's signatures, newest first. */
  lemma TrySignatureIdsNewestFirst(registry: Registry, tryRepository: int)
    ensures var ids := TrySignatureIds(registry, tryRepository);
      && (forall i, j :: 0 <= i < j < |ids| ==> ids[i] >= ids[j])
      && (forall x :: x in ids <==> exists s :: s in registry.signatures && s.repositoryId == tryRepository && s.id == x)
  {
    var ofTry := Filter(registry.signatures, (s: Signature) => s.repositoryId == tryRepository);
    var sorted := SortBy(ofTry, (s: Signature) => -s.id);
    var ids := TrySignatureIds(registry, tryRepository);
    FilterMembers(registry.signatures, (s: Signature) => s.repositoryId == tryRepository);
    SortByOrdered(ofTry, (s: Signature) => -s.id);
    IdsOfIndex(sorted);
    forall s ensures s in sorted <==> s in ofTry {
      assert s in sorted <==> s in multiset(sorted);
      assert s in ofTry <==> s in multiset(ofTry);
    }
    forall x | x in ids ensures exists s :: s in registry.signatures && s.repositoryId == tryRepository && s.id == x {
      var i :| 0 <= i < |ids| && ids[i] == x;
      assert sorted[i] in ofTry;
    }
    forall s | s in registry.signatures && s.repositoryId == tryRepository ensures s.id in ids {
      assert s in ofTry;
      var i :| 0 <= i < |sorted| && sorted[i] == s;
      assert ids[i] == s.id;
    }
  }

  /** The signatures not yet consumed after `lookups` batches were taken off the front. */
  function Remaining(all: seq<int>, lookups: nat): seq<int>
  {
    all[Min(SignatureBulkSize * lookups, |all|)..]
  }

  /**
   * The batch targeted after `lookups` lookups. Batch 0 is sliced off the
   * list without removing it, so batch 1, the first one a lookup takes, is the same.
   */
  function Batch(all: seq<int>, lookups: nat): seq<int>
  {
    if lookups == 0 then all[..Min(SignatureBulkSize, |all|)]
    else all[Min(SignatureBulkSize * (lookups - 1), |all|)..Min(SignatureBulkSize * lookups, |all|)]
  }

  /** The first batch is attempted twice. */
  lemma FirstBatchAttemptedTwice(all: seq<int>)
    ensures Batch(all, 0) == Batch(all, 1)
  {
  }

  /** A lookup takes the next batch off the front of what remains. */
  lemma {:induction false} LookupStep(all: seq<int>, k: nat)
    ensures Batch(all, k + 1) == Remaining(all, k)[..Min(SignatureBulkSize, |Remaining(all, k)|)]
    ensures Remaining(all, k + 1) == Remaining(all, k)[Min(SignatureBulkSize, |Remaining(all, k)|)..]
  {
    var a := Min(SignatureBulkSize * k, |all|);
    assert SignatureBulkSize * (k + 1) == SignatureBulkSize * k + SignatureBulkSize;
    assert Min(SignatureBulkSize * (k + 1), |all|) == a + Min(SignatureBulkSize, |all| - a);
  }

  /** Batches never exceed the bulk size, and a non-empty remainder yields a non-empty batch. */
  lemma BatchBounds(all: seq<int>, k: nat)
    ensures |Batch(all, k + 1)| <= SignatureBulkSize
    ensures |Batch(all, k + 1)| > 0 <==> |Remaining(all, k)| > 0
    ensures |Remaining(all, k + 1)| < |Remaining(all, k)| <==> |Remaining(all, k)| > 0
  {
    LookupStep(all, k);
  }

  function TryRepositoryOf(registry: Registry): Option<int>
  {
    if "try" in registry.repositoryIds then Some(registry.repositoryIds["try"]) else None
  }

  /** Every try signature, newest first; none when there is no try repository. */
  function TryCandidates(registry: Registry): seq<int>
  {
    match TryRepositoryOf(registry)
    case None => []
    case Some(repository) => TrySignatureIds(registry, repository)
  }

  class TryDataRemoval {
    const chunkSize: nat
    const maxTimestamp: int
    const registry: Registry
    /** `__try_repo_id`, `__target_signatures`, `__try_signatures`: computed on first use. */
    var tryRepoId: Option<int>
    var targetSignatures: Option<seq<int>>
    var trySignatures: Option<seq<int>>
    /** How many times `__lookup_new_signature` has run. */
    ghost var lookups: nat
    /**
     * The try signatures, newest first. The registry never changes, so the
     * list is the one `try_signatures` queries on first use.
     */
    const candidates: seq<int>

    constructor (chunkSize: nat, days: Option<int>, now: int, registry: Registry)
      ensures this.chunkSize == chunkSize && this.registry == registry
      ensures maxTimestamp == CutoffFor(now, days, TryCycleInterval)
      ensures candidates == TryCandidates(registry)
      ensures Valid() && !Engaged() && Pending() == candidates
    {
      this.chunkSize := chunkSize;
      maxTimestamp := CutoffFor(now, days, TryCycleInterval);
      this.registry := registry;
      tryRepoId, targetSignatures, trySignatures := None, None, None;
      lookups := 0;
      candidates := TryCandidates(registry);
    }

    function Name(): string
    {
      "try data removal strategy"
    }

    /** `Repository.objects.get(name='try').id`, if there is such a repository. */
    function TryRepository(): Option<int>
    {
      TryRepositoryOf(registry)
    }

    /** The clause of a delete aimed at the try repository and the given signatures. */
    function TryWhere(signatures: seq<int>): Where
    {
      Where(RepositoryAndSignatures(if TryRepository().Some? then TryRepository().value else 0, signatures), maxTimestamp)
    }

    /** Expired rows of the try repository's signatures. */
    ghost function Envelope(): Where
    {
      TryWhere(candidates)
    }

    ghost predicate Valid()
      reads this
    {
      && (tryRepoId.Some? ==> tryRepoId == TryRepository())
      && (trySignatures.Some? <==> targetSignatures.Some?)
      && (trySignatures.Some? ==> tryRepoId.Some? && trySignatures.value == Remaining(candidates, lookups))
      && (targetSignatures.Some? ==> targetSignatures.value == Batch(candidates, lookups))
      && (targetSignatures.None? ==> lookups == 0)
    }

    /** A `Remove` will issue a delete before anything else can stop it. */
    ghost predicate Engaged()
      reads this
    {
      targetSignatures.Some? && targetSignatures.value != []
    }

    /**
     * The signatures still to be attempted: the current batch and the rest
     * of the list. Batch 0 is only a view of the list's front, so until the
     * first lookup the list alone is pending.
     */
    ghost function Pending(): seq<int>
      reads this
    {
      (if lookups > 0 && targetSignatures.Some? then targetSignatures.value else [])
        + (if trySignatures.Some? then trySignatures.value else candidates)
    }

    /** What is left of the list, for the termination of `Remove`. */
    ghost function Progress(): nat
      reads this
    {
      if targetSignatures.None? then |candidates| + 1
      else if trySignatures.Some? then |trySignatures.value|
      else 0
    }

    /**
     * Why a removal that found `target` as the current batch can fail:
     * no try repository, the empty batch an exhausted list leaves behind
     * (its `IN ()` list is malformed), or the store failing the delete.
     */
    ghost predicate FailedBecause(e: Error, target: Option<seq<int>>, db: Database, since: nat)
      reads db
    {
      match e
      case RepositoryDoesNotExist => target.None? && TryRepository().None?
      case MalformedStatement => target.Some? && |target.value| == 0
      case OperationalError => LastStatementFailed(db, since)
      case _ => false
    }

    /** A reason found from a later pass holds for the whole removal. */
    lemma FailedEarlier(e: Error, t1: Option<seq<int>>, t0: Option<seq<int>>, db: Database, since1: nat, since0: nat)
      requires FailedBecause(e, t1, db, since1)
      requires t1 == t0 || (t1.Some? && t1.value != [])
      requires since0 <= since1
      ensures FailedBecause(e, t0, db, since0)
    {
    }

    /** `try_repo` */
    method TryRepo() returns (r: Result<int, Error>)
      modifies this`tryRepoId
      ensures tryRepoId == old(tryRepoId) || old(tryRepoId).None?
      ensures old(tryRepoId).Some? ==> r == Success(old(tryRepoId).value)
      ensures old(tryRepoId).None? ==> tryRepoId == TryRepository()
      ensures old(tryRepoId).None? ==>
        r == (if TryRepository().Some? then Success(TryRepository().value) else Failure(RepositoryDoesNotExist))
    {
      if tryRepoId.None? {
        tryRepoId := TryRepository();
        if tryRepoId.None? {
          return Failure(RepositoryDoesNotExist);
        }
      }
      r := Success(tryRepoId.value);
    }

    /** `target_signatures`: on first use, the first batch of the (lazily listed) try signatures. */
    method TargetSignatures() returns (r: Result<seq<int>, Error>)
      requires Valid()
      modifies this`tryRepoId, this`targetSignatures, this`trySignatures
      ensures Valid()
      ensures old(targetSignatures).Some? ==> r == Success(old(targetSignatures).value)
      ensures old(targetSignatures).Some? ==> targetSignatures == old(targetSignatures) && trySignatures == old(trySignatures)
      ensures old(targetSignatures).None? && TryRepository().None? ==>
        r == Failure(RepositoryDoesNotExist) && targetSignatures.None?
      ensures old(targetSignatures).None? && TryRepository().Some? ==>
        && targetSignatures == Some(Batch(candidates, 0))
        && trySignatures == Some(candidates)
        && r == (if Batch(candidates, 0) == [] then Failure(NoCandidates) else Success(Batch(candidates, 0)))
      ensures r.Success? ==> r.value != [] || old(targetSignatures) == Some([])
      ensures Pending() == old(Pending())
    {
      if targetSignatures.None? {
        var repository := TryRepo();
        if repository.Failure? {
          return Failure(repository.error);
        }
        var all := candidates;
        trySignatures := Some(all);
        targetSignatures := Some(all[..Min(SignatureBulkSize, |all|)]);
        if targetSignatures.value == [] {
          return Failure(NoCandidates);
        }
      }
      r := Success(targetSignatures.value);
    }

    /** `__lookup_new_signature`: the next batch off the front of the list; an empty batch is exhaustion. */
    method LookupNewSignature() returns (found: bool)
      requires Valid() && targetSignatures.Some?
      modifies this`targetSignatures, this`trySignatures, this`lookups
      ensures Valid()
      ensures lookups == old(lookups) + 1
      ensures targetSignatures == Some(old(trySignatures).value[..Min(SignatureBulkSize, |old(trySignatures).value|)])
      ensures trySignatures == Some(old(trySignatures).value[Min(SignatureBulkSize, |old(trySignatures).value|)..])
      ensures found <==> old(trySignatures).value != []
      ensures found ==> |trySignatures.value| < |old(trySignatures).value|
      ensures found == Engaged()
      ensures Pending() == old(trySignatures).value
    {
      LookupStep(candidates, lookups);
      var remaining := trySignatures.value;
      var n := Min(SignatureBulkSize, |remaining|);
      targetSignatures := Some(remaining[..n]);
      trySignatures := Some(remaining[n..]);
      lookups := lookups + 1;
      found := n > 0;
      assert remaining[..n] + remaining[n..] == remaining;
    }

    /**
     * `__attempt_remove`: one delete aimed at the current batch. Listing the
     * batch can fail first (no try repository, no try signatures); an empty
     * batch left by an earlier exhaustion makes a malformed statement.
     */
    method AttemptRemove(cursor: Cursor) returns (outcome: Result<seq<int>, Error>)
      requires Valid()
      modifies this`tryRepoId, this`targetSignatures, this`trySignatures
      modifies cursor, cursor.db`rows, cursor.db`statements
      ensures Valid() && lookups == old(lookups)
      ensures old(targetSignatures).Some? ==> targetSignatures == old(targetSignatures) && trySignatures == old(trySignatures)
      ensures Progress() <= old(Progress())
      ensures Pending() == old(Pending())
      ensures outcome.Failure? ==> cursor.db.rows == old(cursor.db.rows) && cursor.rowcount == old(cursor.rowcount)
      ensures outcome == Failure(NoCandidates) ==> old(targetSignatures).None? && Pending() == []
      ensures cursor.db.statements >= old(cursor.db.statements)
      ensures outcome.Failure? && outcome.error != NoCandidates ==>
        FailedBecause(outcome.error, old(targetSignatures), cursor.db, old(cursor.db.statements))
      ensures outcome.Success? ==>
        && targetSignatures == Some(outcome.value) && Engaged()
        && Covers(Envelope(), TryWhere(outcome.value))
        && cursor.db.rows == DeleteLimited(old(cursor.db.rows), TryWhere(outcome.value), chunkSize)
        && cursor.rowcount == DeletedCount(old(cursor.db.rows), TryWhere(outcome.value), chunkSize)
        && cursor.rowcount == |old(cursor.db.rows)| - |cursor.db.rows|
    {
      var target := TargetSignatures();
      if target.Failure? {
        return Failure(target.error);
      }
      var repository := TryRepo();
      var executed := cursor.ExecuteDelete(TryWhere(target.value), chunkSize);
      if executed.Failure? {
        return Failure(executed.error);
      }
      TargetWithinEnvelope(target.value);
      outcome := Success(target.value);
    }

    /**
     * One pass of the loop in `remove`: attempt the current batch and, when
     * that deleted nothing, take the next one. `cleared` holds the
     * signatures already found to have no expired row left; a batch taken
     * off the list joins them when its delete removes nothing.
     */
    method Pass(cursor: Cursor, ghost rows0: seq<Datum>, ghost cleared: seq<int>)
      returns (stop: bool, outcome: Result<(), Error>, ghost cleared': seq<int>)
      requires Valid() && cursor.db.rows == rows0
      requires chunkSize >= 1 ==> Matched(rows0, TryWhere(cleared)) == []
      modifies this`tryRepoId, this`targetSignatures, this`trySignatures, this`lookups
      modifies cursor, cursor.db`rows, cursor.db`statements
      ensures Valid()
      ensures RemovesOnly(rows0, cursor.db.rows, Envelope()) && |rows0| - |cursor.db.rows| <= chunkSize
      ensures chunkSize >= 1 ==> Matched(rows0, TryWhere(cleared')) == []
      ensures outcome.Failure? ==> stop && cursor.db.rows == rows0 && cursor.rowcount == old(cursor.rowcount)
      ensures cursor.db.statements >= old(cursor.db.statements)
      ensures outcome.Failure? ==> FailedBecause(outcome.error, old(targetSignatures), cursor.db, old(cursor.db.statements))
      // nothing deleted: the next batch is current
      ensures !stop ==>
        && cursor.db.rows == rows0 && cursor.rowcount == 0 && Engaged()
        && cleared + old(Pending()) == cleared' + Pending()
        && Progress() < old(Progress())
      ensures stop && outcome.Success? ==>
        || (cursor.rowcount > 0 && cursor.rowcount == |rows0| - |cursor.db.rows| && Engaged())
        || (&& cursor.db.rows == rows0 && Pending() == []
            && cleared + old(Pending()) == cleared'
            && (cursor.rowcount == 0 || (cursor.rowcount == old(cursor.rowcount) && !old(Engaged()))))
    {
      cleared' := cleared;
      stop, outcome := true, Success(());
      var batch := AttemptRemove(cursor);
      if batch.Failure? {
        if batch.error == NoCandidates {
          ConcatEmpty(cleared);
        } else {
          outcome := Failure(batch.error);
        }
      } else {
        stop, cleared' := AfterDelete(cursor, rows0, cleared, batch.value);
      }
    }

    /** The rest of a pass once the delete of `batch` went through: if it removed nothing, take the next batch. */
    method AfterDelete(cursor: Cursor, ghost rows0: seq<Datum>, ghost cleared: seq<int>, ghost batch: seq<int>)
      returns (stop: bool, ghost cleared': seq<int>)
      requires Valid() && targetSignatures == Some(batch) && Engaged() && Covers(Envelope(), TryWhere(batch))
      requires chunkSize >= 1 ==> Matched(rows0, TryWhere(cleared)) == []
      requires cursor.db.rows == DeleteLimited(rows0, TryWhere(batch), chunkSize)
      requires cursor.rowcount == DeletedCount(rows0, TryWhere(batch), chunkSize)
      requires cursor.rowcount == |rows0| - |cursor.db.rows|
      modifies this`targetSignatures, this`trySignatures, this`lookups
      ensures Valid()
      ensures RemovesOnly(rows0, cursor.db.rows, Envelope()) && |rows0| - |cursor.db.rows| <= chunkSize
      ensures chunkSize >= 1 ==> Matched(rows0, TryWhere(cleared')) == []
      ensures !stop ==>
        && cursor.db.rows == rows0 && cursor.rowcount == 0 && Engaged()
        && cleared + old(Pending()) == cleared' + Pending()
        && Progress() < old(Progress())
      ensures stop ==>
        || (cursor.rowcount > 0 && Engaged())
        || (cursor.db.rows == rows0 && Pending() == [] && cleared + old(Pending()) == cleared' && cursor.rowcount == 0)
    {
      cleared', stop := cleared, true;
      DeleteWithin(rows0, TryWhere(batch), chunkSize, Envelope());
      if cursor.rowcount == 0 {
        DeleteNothing(rows0, TryWhere(batch), chunkSize);
        var found;
        found, cleared' := NextBatch(rows0, cleared);
        stop := !found;
      }
    }

    /**
     * After a delete of the current batch removed nothing: take the next
     * batch. The batch just attempted joins `cleared` unless it was only the
     * front of the list, which stays pending.
     */
    method NextBatch(ghost rows0: seq<Datum>, ghost cleared: seq<int>) returns (found: bool, ghost cleared': seq<int>)
      requires Valid() && Engaged()
      requires chunkSize >= 1 ==>
        Matched(rows0, TryWhere(cleared)) == [] && Matched(rows0, TryWhere(targetSignatures.value)) == []
      modifies this`targetSignatures, this`trySignatures, this`lookups
      ensures Valid() && lookups == old(lookups) + 1
      ensures chunkSize >= 1 ==> Matched(rows0, TryWhere(cleared')) == []
      ensures cleared + old(Pending()) == cleared' + Pending()
      ensures found == Engaged()
      ensures found ==> Progress() < old(Progress())
      ensures !found ==> Pending() == []
    {
      ghost var taken: seq<int> := [];
      cleared' := cleared;
      if lookups > 0 {
        taken := targetSignatures.value;
        if chunkSize >= 1 {
          ClearedAppend(rows0, cleared, taken);
        }
        cleared' := cleared + taken;
      } else {
        ConcatEmpty(cleared);
      }
      ghost var rest := trySignatures.value;
      found := LookupNewSignature();
      ConcatAssoc(cleared, taken, rest);
      if !found {
        ConcatEmpty(cleared');
      }
    }

    /**
     * `remove`: delete from the current batch; while a batch yields nothing,
     * move to the next one, and stop at the first chunk that deletes rows
     * or when the signatures run out.
     */
    method Remove(cursor: Cursor) returns (outcome: Result<(), Error>)
      requires Valid()
      modifies this`tryRepoId, this`targetSignatures, this`trySignatures, this`lookups
      modifies cursor, cursor.db`rows, cursor.db`statements
      ensures Valid()
      ensures RemovesOnly(old(cursor.db.rows), cursor.db.rows, Envelope())
      ensures |old(cursor.db.rows)| - |cursor.db.rows| <= chunkSize
      ensures outcome.Failure? ==> cursor.db.rows == old(cursor.db.rows)
      ensures outcome.Success? ==>
        || cursor.rowcount == |old(cursor.db.rows)| - |cursor.db.rows|
        || (cursor.rowcount == old(cursor.rowcount) && cursor.db.rows == old(cursor.db.rows) && !old(Engaged()))
      ensures outcome.Success? && cursor.rowcount > 0 && cursor.rowcount == |old(cursor.db.rows)| - |cursor.db.rows| ==> Engaged()
      // stopping without deleting means every pending signature has no expired row left
      ensures outcome.Success? && cursor.rowcount <= 0 ==> Pending() == []
      ensures outcome.Success? && cursor.rowcount <= 0 && chunkSize >= 1 ==>
        Matched(cursor.db.rows, TryWhere(old(Pending()))) == []
      // a removal fails only without a try repository, on the empty batch an
      // exhausted list leaves behind, or when the store fails a delete
      ensures cursor.db.statements >= old(cursor.db.statements)
      ensures outcome.Failure? ==> FailedBecause(outcome.error, old(targetSignatures), cursor.db, old(cursor.db.statements))
    {
      ghost var rows0 := cursor.db.rows;
      ghost var pending0 := Pending();
      ghost var first := true;
      ghost var cleared: seq<int> := [];
      NoneMatched(rows0, TryWhere(cleared));
      while true
        invariant Valid()
        invariant cursor.db.rows == rows0
        invariant first ==> cursor.rowcount == old(cursor.rowcount) && lookups == old(lookups)
        invariant first ==> targetSignatures == old(targetSignatures) && trySignatures == old(trySignatures)
        invariant !first ==> cursor.rowcount == 0 && Engaged()
        invariant cursor.db.statements >= old(cursor.db.statements)
        invariant chunkSize >= 1 ==> Matched(rows0, TryWhere(cleared)) == []
        invariant pending0 == cleared + Pending()
        decreases Progress()
      {
        var stop;
        ghost var targetNow, statementsNow := targetSignatures, cursor.db.statements;
        stop, outcome, cleared := Pass(cursor, rows0, cleared);
        if stop {
          if outcome.Failure? {
            FailedEarlier(outcome.error, targetNow, old(targetSignatures), cursor.db, statementsNow, old(cursor.db.statements));
          }
          return;
        }
        first := false;
      }
    }

    /** The current batch lies within the try signatures. */
    lemma TargetWithinEnvelope(batch: seq<int>)
      requires Valid() && targetSignatures == Some(batch)
      ensures Covers(Envelope(), TryWhere(batch))
    {
      forall x | x in batch ensures x in candidates {
        if lookups == 0 {
          assert batch == candidates[..Min(SignatureBulkSize, |candidates|)];
        } else {
          assert batch == candidates[Min(SignatureBulkSize * (lookups - 1), |candidates|)..Min(SignatureBulkSize * lookups, |candidates|)];
        }
      }
    }

    /** Two sets of signatures without expired rows have none together. */
    lemma ClearedAppend(rows: seq<Datum>, a: seq<int>, b: seq<int>)
      requires Matched(rows, TryWhere(a)) == [] && Matched(rows, TryWhere(b)) == []
      ensures Matched(rows, TryWhere(a + b)) == []
    {
      forall d | d in rows ensures !Matches(TryWhere(a + b), d) {
        assert d !in Matched(rows, TryWhere(a)) && d !in Matched(rows, TryWhere(b));
      }
      NoneMatched(rows, TryWhere(a + b));
    }
  }

  // ---------------------------------------------------------------------
  // IrrelevantDataRemoval

  /**
   * The ids of those `RELEVANT_REPO_NAMES` that name a repository, in the
   * order of the names; missing names are skipped.
   */
  function RelevantIds(repositoryIds: map<string, int>, names: seq<string>): (r: seq<int>)
    ensures |r| <= |names|
    ensures |r| == |names| <==> forall name :: name in names ==> name in repositoryIds
    ensures forall x :: x in r <==> exists name :: name in names && name in repositoryIds && repositoryIds[name] == x
  {
    if names == [] then []
    else
      var rest := RelevantIds(repositoryIds, names[1..]);
      assert forall name :: name in names <==> name == names[0] || name in names[1..];
      if names[0] in repositoryIds then [repositoryIds[names[0]]] + rest else rest
  }

  class IrrelevantDataRemoval {
    const chunkSize: nat
    const maxTimestamp: int
    const registry: Registry
    /** `__relevant_repos`: computed on first use. */
    var relevantRepos: Option<seq<int>>

    constructor (chunkSize: nat, days: Option<int>, now: int, registry: Registry)
      ensures this.chunkSize == chunkSize && this.registry == registry
      ensures maxTimestamp == CutoffFor(now, days, IrrelevantCycleInterval)
      ensures Valid()
    {
      this.chunkSize := chunkSize;
      maxTimestamp := CutoffFor(now, days, IrrelevantCycleInterval);
      this.registry := registry;
      relevantRepos := None;
    }

    function Name(): string
    {
      "irrelevant data removal strategy"
    }

    function Relevant(): seq<int>
    {
      RelevantIds(registry.repositoryIds, RelevantRepoNames)
    }

    /** Expired rows of every repository that is not relevant. */
    function Envelope(): Where
    {
      Where(RepositoriesExcept(Relevant()), maxTimestamp)
    }

    ghost predicate Valid()
      reads this
    {
      relevantRepos.Some? ==> relevantRepos.value == Relevant()
    }

    /**
     * `relevant_repositories`: the ids are listed once; that some names
     * are missing is only logged.
     */
    method RelevantRepositories() returns (r: seq<int>)
      requires Valid()
      modifies this`relevantRepos
      ensures Valid() && relevantRepos == Some(r)
      ensures forall x :: x in r <==> exists name :: name in RelevantRepoNames && name in registry.repositoryIds && registry.repositoryIds[name] == x
    {
      if relevantRepos.None? {
        relevantRepos := Some(Relevant());
      }
      r := relevantRepos.value;
    }

    /**
     * `remove`: size the chunk without the relevant repositories, then one
     * `DELETE ... WHERE repository_id NOT IN relevant AND push_timestamp <= cutoff LIMIT size`.
     */
    method Remove(cursor: Cursor) returns (outcome: Result<(), Error>)
      requires Valid()
      modifies this`relevantRepos, cursor, cursor.db`rows, cursor.db`statements
      ensures Valid() && relevantRepos.Some?
      ensures RemovesOnly(old(cursor.db.rows), cursor.db.rows, Envelope())
      ensures |old(cursor.db.rows)| - |cursor.db.rows| <= chunkSize
      ensures outcome.Failure? ==> cursor.db.rows == old(cursor.db.rows)
      ensures outcome.Success? ==> cursor.rowcount == |old(cursor.db.rows)| - |cursor.db.rows|
      ensures outcome == Failure(EmptyQuerySet) <==>
        forall d :: d in old(cursor.db.rows) ==> !Live(d, maxTimestamp, Relevant())
      // no relevant repository is known: the `NOT IN ()` list is malformed
      ensures Relevant() == [] && outcome != Failure(EmptyQuerySet) ==> outcome == Failure(MalformedStatement)
      ensures outcome.Success? && chunkSize >= 1 && cursor.rowcount == 0 ==>
        Matched(cursor.db.rows, Envelope()) == []
      // the LIMIT is the ideal chunk size over the rows outside the relevant repositories
      ensures outcome.Success? ==>
        cursor.db.rows == DeleteLimited(old(cursor.db.rows), Envelope(),
                                        IdealChunkSize(old(cursor.db.rows), maxTimestamp, Relevant(), chunkSize).value)
      // with a row to size the chunk by and a well-formed list, only the store's own failure stops the delete
      ensures outcome == Failure(MalformedStatement) <==>
        (exists d :: d in old(cursor.db.rows) && Live(d, maxTimestamp, Relevant())) && Relevant() == []
      ensures outcome == Failure(OperationalError) <==>
        (exists d :: d in old(cursor.db.rows) && Live(d, maxTimestamp, Relevant())) && Relevant() != [] &&
        cursor.db.faults(old(cursor.db.statements))
      ensures outcome.Failure? ==>
        outcome.error == EmptyQuerySet || outcome.error == MalformedStatement || outcome.error == OperationalError
      ensures cursor.db.statements >= old(cursor.db.statements)
      ensures outcome == Failure(OperationalError) ==> LastStatementFailed(cursor.db, old(cursor.db.statements))
    {
      var relevant := RelevantRepositories();
      var size := IdealChunkSize(cursor.db.rows, maxTimestamp, relevant, chunkSize);
      if size.Failure? {
        return Failure(size.error);
      }
      ghost var before := cursor.db.rows;
      outcome := cursor.ExecuteDelete(Where(RepositoriesExcept(relevant), maxTimestamp), size.value);
      if outcome.Success? {
        DeleteWithin(before, Envelope(), size.value, Envelope());
        if cursor.rowcount == 0 {
          DeleteNothing(before, Envelope(), size.value);
        }
      }
    }

    /** Rows of a relevant repository are never removed, however old. */
    lemma RelevantRowsSurvive(before: seq<Datum>, after: seq<Datum>, d: Datum)
      requires RemovesOnly(before, after, Envelope())
      requires d in before && d.repositoryId in Relevant()
      ensures d in after
    {
      RemovesOnlyKeeps(before, after, Envelope(), d);
    }
  }

  // ---------------------------------------------------------------------
  // StalledDataRemoval

  /** Signatures not updated since the cutoff, least recently updated first: `order_by('last_updated')`. */
  function StaleSignatures(registry: Registry, cutoff: int): seq<Signature>
  {
    SortBy(Filter(registry.signatures, (s: Signature) => s.lastUpdated <= cutoff), (s: Signature) => s.lastUpdated)
  }

  /** The list holds exactly the stalled signatures, ordered by last update. */
  lemma StaleSignaturesOrdered(registry: Registry, cutoff: int)
    ensures var stale := StaleSignatures(registry, cutoff);
      && (forall i, j :: 0 <= i < j < |stale| ==> stale[i].lastUpdated <= stale[j].lastUpdated)
      && (forall s :: s in stale <==> s in registry.signatures && s.lastUpdated <= cutoff)
  {
    var stalled := Filter(registry.signatures, (s: Signature) => s.lastUpdated <= cutoff);
    var stale := StaleSignatures(registry, cutoff);
    FilterMembers(registry.signatures, (s: Signature) => s.lastUpdated <= cutoff);
    SortByOrdered(stalled, (s: Signature) => s.lastUpdated);
    forall s ensures s in stale <==> s in stalled {
      assert s in stale <==> s in multiset(stale);
      assert s in stalled <==> s in multiset(stalled);
    }
  }

  class StalledDataRemoval {
    const chunkSize: nat
    const maxTimestamp: int
    const registry: Registry
    /** `_target_signature` */
    var targetSignature: Option<Signature>
    /** `_removable_signatures`: listed on first use, then popped from the end. */
    var removableSignatures: Option<seq<Signature>>
    /** How many signatures have been popped off the list. */
    ghost var popped: nat
    /**
     * The stalled signatures, least recently updated first. The registry
     * never changes, so the list is the one `removable_signatures` queries
     * on first use.
     */
    const stale: seq<Signature>

    constructor (chunkSize: nat, days: Option<int>, now: int, registry: Registry)
      ensures this.chunkSize == chunkSize && this.registry == registry
      ensures maxTimestamp == CutoffFor(now, days, StalledCycleInterval)
      ensures stale == StaleSignatures(registry, maxTimestamp)
      ensures Valid() && !Engaged() && Pending() == stale
    {
      this.chunkSize := chunkSize;
      maxTimestamp := CutoffFor(now, days, StalledCycleInterval);
      this.registry := registry;
      targetSignature, removableSignatures := None, None;
      popped := 0;
      stale := StaleSignatures(registry, CutoffFor(now, days, StalledCycleInterval));
    }

    function Name(): string
    {
      "stalled data removal strategy"
    }

    /** The clause of a delete aimed at some of the stalled signatures. */
    ghost function StalledWhere(signatures: seq<Signature>): Where
    {
      Where(SignaturesOf(signatures), maxTimestamp)
    }

    /** `repository_id = %s AND signature_id = %s AND push_timestamp <= %s` */
    function TargetWhere(target: Signature): Where
    {
      Where(RepositoryAndSignatures(target.repositoryId, [target.id]), maxTimestamp)
    }

    /** Expired rows of every stalled signature. */
    ghost function Envelope(): Where
    {
      StalledWhere(stale)
    }

    ghost predicate Valid()
      reads this
    {
      && popped <= |stale|
      && (removableSignatures.Some? ==> removableSignatures.value == stale[..|stale| - popped])
      && (removableSignatures.None? ==> targetSignature.None?)
      && (targetSignature.Some? ==> popped >= 1 && targetSignature.value == stale[|stale| - popped])
      && (targetSignature.None? ==> popped == 0)
    }

    /** A `Remove` will issue a delete before anything else can stop it. */
    ghost predicate Engaged()
      reads this
    {
      targetSignature.Some?
    }

    /** The signatures still to be attempted: the rest of the list, then the current target on top. */
    ghost function Pending(): seq<Signature>
      reads this
    {
      (if removableSignatures.Some? then removableSignatures.value else stale)
        + (if targetSignature.Some? then [targetSignature.value] else [])
    }

    /** `target_signature`: on first use, pop the most recently updated stalled signature. */
    method TargetSignature() returns (r: Result<Signature, Error>)
      requires Valid()
      modifies this`targetSignature, this`removableSignatures, this`popped
      ensures Valid()
      ensures old(targetSignature).Some? ==> r == Success(old(targetSignature).value) && unchanged(this)
      ensures old(targetSignature).None? && stale == [] ==>
        r == Failure(NoCandidates) && targetSignature.None? && removableSignatures == Some([])
      ensures old(targetSignature).None? && stale != [] ==>
        && r == Success(stale[|stale| - 1]) && targetSignature == Some(stale[|stale| - 1])
        && removableSignatures == Some(stale[..|stale| - 1]) && popped == 1
      ensures r.Success? ==> targetSignature == Some(r.value)
      ensures Pending() == old(Pending())
    {
      if targetSignature.None? {
        if removableSignatures.None? {
          removableSignatures := Some(stale);
          assert stale[..|stale| - popped] == stale;
        }
        var removable := removableSignatures.value;
        if removable == [] {
          return Failure(NoCandidates);
        }
        targetSignature := Some(removable[|removable| - 1]);
        removableSignatures := Some(removable[..|removable| - 1]);
        popped := 1;
        assert removable == removable[..|removable| - 1] + [removable[|removable| - 1]];
      }
      r := Success(targetSignature.value);
    }

    /** `__lookup_new_signature`: pop the next one; an empty list leaves the target as it was. */
    method LookupNewSignature() returns (found: bool)
      requires Valid() && targetSignature.Some?
      modifies this`targetSignature, this`removableSignatures, this`popped
      ensures Valid() && Engaged()
      ensures found <==> old(removableSignatures).value != []
      ensures !found ==> unchanged(this)
      ensures found ==>
        && targetSignature == Some(old(removableSignatures).value[|old(removableSignatures).value| - 1])
        && removableSignatures == Some(old(removableSignatures).value[..|old(removableSignatures).value| - 1])
        && popped == old(popped) + 1
      ensures found ==> old(Pending()) == Pending() + [old(targetSignature).value]
      ensures !found ==> old(Pending()) == [targetSignature.value]
    {
      var removable := removableSignatures.value;
      if removable == [] {
        return false;
      }
      targetSignature := Some(removable[|removable| - 1]);
      removableSignatures := Some(removable[..|removable| - 1]);
      popped := popped + 1;
      found := true;
      assert removable == removable[..|removable| - 1] + [removable[|removable| - 1]];
    }

    /**
     * `__attempt_remove`: one delete aimed at the target signature; finding
     * the target can fail first.
     */
    method AttemptRemove(cursor: Cursor) returns (outcome: Result<Signature, Error>)
      requires Valid()
      modifies this`targetSignature, this`removableSignatures, this`popped
      modifies cursor, cursor.db`rows, cursor.db`statements
      ensures Valid()
      ensures old(targetSignature).Some? ==> unchanged(this)
      ensures removableSignatures.Some?
      ensures Pending() == old(Pending())
      ensures outcome.Failure? ==> cursor.db.rows == old(cursor.db.rows) && cursor.rowcount == old(cursor.rowcount)
      ensures outcome == Failure(NoCandidates) ==> old(targetSignature).None? && Pending() == []
      ensures cursor.db.statements >= old(cursor.db.statements)
      ensures outcome.Failure? ==> outcome == Failure(NoCandidates) || outcome == Failure(OperationalError)
      ensures outcome == Failure(OperationalError) ==> LastStatementFailed(cursor.db, old(cursor.db.statements))
      ensures outcome.Success? ==>
        && targetSignature == Some(outcome.value) && outcome.value in stale
        && Covers(Envelope(), TargetWhere(outcome.value))
        && cursor.db.rows == DeleteLimited(old(cursor.db.rows), TargetWhere(outcome.value), chunkSize)
        && cursor.rowcount == DeletedCount(old(cursor.db.rows), TargetWhere(outcome.value), chunkSize)
        && cursor.rowcount == |old(cursor.db.rows)| - |cursor.db.rows|
    {
      var target := TargetSignature();
      if target.Failure? {
        return Failure(target.error);
      }
      var executed := cursor.ExecuteDelete(TargetWhere(target.value), chunkSize);
      if executed.Failure? {
        return Failure(executed.error);
      }
      TargetWithinEnvelope(target.value);
      outcome := Success(target.value);
    }

    /**
     * One pass of the loop in `remove`: attempt the target and, when that
     * deleted nothing, pop the next signature. `cleared` holds the
     * signatures already found to have no expired row left; the target
     * joins them when its delete removes nothing.
     */
    method Pass(cursor: Cursor, ghost rows0: seq<Datum>, ghost cleared: seq<Signature>)
      returns (stop: bool, outcome: Result<(), Error>, ghost cleared': seq<Signature>)
      requires Valid() && cursor.db.rows == rows0
      requires chunkSize >= 1 ==> Matched(rows0, StalledWhere(cleared)) == []
      modifies this`targetSignature, this`removableSignatures, this`popped
      modifies cursor, cursor.db`rows, cursor.db`statements
      ensures Valid() && popped >= old(popped)
      ensures RemovesOnly(rows0, cursor.db.rows, Envelope()) && |rows0| - |cursor.db.rows| <= chunkSize
      ensures chunkSize >= 1 ==> Matched(rows0, StalledWhere(cleared')) == []
      ensures outcome.Failure? ==> stop && cursor.db.rows == rows0 && cursor.rowcount == old(cursor.rowcount)
      ensures cursor.db.statements >= old(cursor.db.statements)
      ensures outcome.Failure? ==>
        outcome == Failure(OperationalError) && LastStatementFailed(cursor.db, old(cursor.db.statements))
      // nothing deleted: the next signature is on top
      ensures !stop ==>
        && cursor.db.rows == rows0 && cursor.rowcount == 0 && Engaged()
        && old(Pending()) + cleared == Pending() + cleared'
        && (old(removableSignatures).None? || |removableSignatures.value| < |old(removableSignatures).value|)
      ensures stop && outcome.Success? ==>
        || (cursor.rowcount > 0 && cursor.rowcount == |rows0| - |cursor.db.rows| && Engaged())
        || (&& cursor.db.rows == rows0 && removableSignatures == Some([])
            && old(Pending()) + cleared == cleared'
            && (cursor.rowcount == 0 || (cursor.rowcount == old(cursor.rowcount) && !old(Engaged()))))
    {
      cleared' := cleared;
      var target := AttemptRemove(cursor);
      if target.Failure? {
        stop := true;
        if target.error == NoCandidates {
          return stop, Success(()), cleared';
        }
        return stop, Failure(target.error), cleared';
      }
      DeleteWithin(rows0, TargetWhere(target.value), chunkSize, Envelope());
      if cursor.rowcount > 0 {
        return true, Success(()), cleared';
      }
      DeleteNothing(rows0, TargetWhere(target.value), chunkSize);
      var found;
      found, cleared' := NextTarget(rows0, cleared);
      stop, outcome := !found, Success(());
    }

    /**
     * After a delete of the target removed nothing: pop the next
     * signature. The target joins `cleared`.
     */
    method NextTarget(ghost rows0: seq<Datum>, ghost cleared: seq<Signature>) returns (found: bool, ghost cleared': seq<Signature>)
      requires Valid() && Engaged()
      requires chunkSize >= 1 ==>
        Matched(rows0, StalledWhere(cleared)) == [] && DeletedCount(rows0, TargetWhere(targetSignature.value), chunkSize) == 0
      modifies this`targetSignature, this`removableSignatures, this`popped
      ensures Valid() && Engaged() && popped >= old(popped)
      ensures chunkSize >= 1 ==> Matched(rows0, StalledWhere(cleared')) == []
      ensures found ==>
        && old(Pending()) + cleared == Pending() + cleared'
        && |removableSignatures.value| < |old(removableSignatures).value|
      ensures !found ==> removableSignatures == Some([]) && old(Pending()) + cleared == cleared'
    {
      var target := targetSignature.value;
      if chunkSize >= 1 {
        ClearedTarget(rows0, cleared, target);
      }
      cleared' := [target] + cleared;
      found := LookupNewSignature();
      if found {
        ConcatAssoc(Pending(), [target], cleared);
      }
    }

    /**
     * `remove`: delete from the target signature; while it yields nothing,
     * pop the next one, and stop at the first chunk that deletes rows or
     * when the list runs out.
     */
    method Remove(cursor: Cursor) returns (outcome: Result<(), Error>)
      requires Valid()
      modifies this`targetSignature, this`removableSignatures, this`popped
      modifies cursor, cursor.db`rows, cursor.db`statements
      ensures Valid()
      ensures RemovesOnly(old(cursor.db.rows), cursor.db.rows, Envelope())
      ensures |old(cursor.db.rows)| - |cursor.db.rows| <= chunkSize
      ensures outcome.Failure? ==> cursor.db.rows == old(cursor.db.rows)
      ensures outcome.Success? ==>
        || cursor.rowcount == |old(cursor.db.rows)| - |cursor.db.rows|
        || (cursor.rowcount == old(cursor.rowcount) && cursor.db.rows == old(cursor.db.rows) && !old(Engaged()))
      ensures outcome.Success? && cursor.rowcount > 0 && cursor.rowcount == |old(cursor.db.rows)| - |cursor.db.rows| ==> Engaged()
      // the list only shrinks
      ensures popped >= old(popped)
      // stopping without deleting means every pending signature has no expired row left
      ensures outcome.Success? && cursor.rowcount <= 0 ==> removableSignatures == Some([])
      ensures outcome.Success? && cursor.rowcount <= 0 && chunkSize >= 1 ==>
        Matched(cursor.db.rows, StalledWhere(old(Pending()))) == []
      // a removal fails only when the store fails a delete
      ensures cursor.db.statements >= old(cursor.db.statements)
      ensures outcome.Failure? ==>
        outcome == Failure(OperationalError) && LastStatementFailed(cursor.db, old(cursor.db.statements))
    {
      ghost var rows0 := cursor.db.rows;
      ghost var pending0 := Pending();
      ghost var first := true;
      ghost var cleared: seq<Signature> := [];
      NoneMatched(rows0, StalledWhere(cleared));
      while true
        invariant Valid()
        invariant cursor.db.rows == rows0
        invariant popped >= old(popped)
        invariant first ==> cursor.rowcount == old(cursor.rowcount) && popped == old(popped)
        invariant first ==> targetSignature == old(targetSignature) && removableSignatures == old(removableSignatures)
        invariant !first ==> cursor.rowcount == 0 && Engaged()
        invariant cursor.db.statements >= old(cursor.db.statements)
        invariant chunkSize >= 1 ==> Matched(rows0, StalledWhere(cleared)) == []
        invariant pending0 == Pending() + cleared
        decreases if removableSignatures.None? then |stale| + 1 else |removableSignatures.value|
      {
        var stop;
        stop, outcome, cleared := Pass(cursor, rows0, cleared);
        if stop {
          return;
        }
        first := false;
      }
    }

    /** Every signature of the list is a stalled signature. */
    lemma TargetWithinEnvelope(target: Signature)
      requires target in stale
      ensures Covers(Envelope(), TargetWhere(target))
    {
      forall d | Matches(TargetWhere(target), d) ensures Matches(Envelope(), d) {
        assert OfSignature(d, target);
      }
    }

    /** The target is the most recently updated of the signatures still on the list. */
    lemma TargetNewest()
      requires stale == StaleSignatures(registry, maxTimestamp)
      requires Valid() && targetSignature.Some? && removableSignatures.Some?
      ensures forall s :: s in removableSignatures.value ==> s.lastUpdated <= targetSignature.value.lastUpdated
      ensures targetSignature.value.lastUpdated <= maxTimestamp
    {
      StaleSignaturesOrdered(registry, maxTimestamp);
      forall s | s in removableSignatures.value ensures s.lastUpdated <= targetSignature.value.lastUpdated {
        var i :| 0 <= i < |removableSignatures.value| && removableSignatures.value[i] == s;
        assert stale[i] == s;
      }
      assert targetSignature.value in stale;
    }

    /** A target whose delete removed nothing joins the cleared signatures. */
    lemma ClearedTarget(rows: seq<Datum>, cleared: seq<Signature>, target: Signature)
      requires Matched(rows, StalledWhere(cleared)) == []
      requires DeletedCount(rows, TargetWhere(target), chunkSize) == 0 && chunkSize >= 1
      ensures Matched(rows, StalledWhere([target] + cleared)) == []
    {
      forall d | d in rows ensures !Matches(StalledWhere([target] + cleared), d) {
        assert d !in Matched(rows, StalledWhere(cleared)) && d !in Matched(rows, TargetWhere(target));
      }
      NoneMatched(rows, StalledWhere([target] + cleared));
    }
  }
}

=== FILE: treeherder.dfy ===
/**
 * The Treeherder cycler: after the jobs are expired, the job types, job
 * groups and machines no remaining job refers to are deleted, in chunks of
 * `chunk_size` ids per DELETE statement.
 */
module Treeherder {
  import opened Wrappers
  import opened Seqs
  import opened Strategies

  /** `TreeherderCycler.DEFAULT_CYCLE_INTERVAL`, in days. */
  const DefaultCycleInterval: int := 120

  /** A job, reduced to the three references the pruning looks at. */
  datatype Job = Job(jobTypeId: int, jobGroupId: int, machineId: int)

  /** The `id_name` handed to `prune`. */
  datatype IdColumn = JobTypeId | JobGroupId | MachineId

  function IdOf(j: Job, column: IdColumn): int
  {
    match column
    case JobTypeId => j.jobTypeId
    case JobGroupId => j.jobGroupId
    case MachineId => j.machineId
  }

  /** `Job.objects.values_list(id_name).distinct()` */
  function UsedIds(jobs: seq<Job>, column: IdColumn): set<int>
  {
    set j | j in jobs :: IdOf(j, column)
  }

  /** `model.objects.exclude(id__in=used_ids)`: the ids no job uses, in table order. */
  function Unused(ids: seq<int>, used: set<int>): seq<int>
  {
    if ids == [] then []
    else (if ids[0] in used then [] else [ids[0]]) + Unused(ids[1..], used)
  }

  /** The ids some job uses, in table order: what pruning should leave. */
  function Used(ids: seq<int>, used: set<int>): seq<int>
  {
    if ids == [] then []
    else (if ids[0] in used then [ids[0]] else []) + Used(ids[1..], used)
  }

  /** `model.objects.filter(id__in=delete_ids).delete()`: the table without those ids. */
  function Without(ids: seq<int>, deleted: seq<int>): (r: seq<int>)
    ensures |r| <= |ids|
  {
    if ids == [] then []
    else (if ids[0] in deleted then [] else [ids[0]]) + Without(ids[1..], deleted)
  }

  /** The batches one after the other. */
  function Concat(batches: seq<seq<int>>): seq<int>
  {
    if batches == [] then [] else Concat(batches[..|batches| - 1]) + batches[|batches| - 1]
  }

  /** The number of DELETE statements the prune loop issues for `n` unused ids. */
  function Batches(n: nat, chunkSize: nat): nat
    requires chunkSize >= 1
    decreases n
  {
    if n == 0 then 0 else 1 + Batches(n - Min(chunkSize, n), chunkSize)
  }

  /** The unused ids are exactly the table's ids no job refers to. */
  lemma UnusedMembers(ids: seq<int>, used: set<int>)
    ensures forall x :: x in Unused(ids, used) <==> x in ids && x !in used
  {
    forall x ensures x in Unused(ids, used) <==> x in ids && x !in used {
      UnusedMember(ids, used, x);
    }
  }

  lemma {:induction false} UnusedMember(ids: seq<int>, used: set<int>, x: int)
    ensures x in Unused(ids, used) <==> x in ids && x !in used
  {
    if ids != [] {
      UnusedMember(ids[1..], used, x);
      assert ids == [ids[0]] + ids[1..];
    }
  }

  /** Deleting removes exactly the listed ids. */
  lemma {:induction false} WithoutMembers(ids: seq<int>, deleted: seq<int>)
    ensures forall x :: x in Without(ids, deleted) <==> x in ids && x !in deleted
  {
    if ids != [] {
      WithoutMembers(ids[1..], deleted);
      assert ids == [ids[0]] + ids[1..];
    }
  }

  /** Two deletions in a row delete the union of their ids. */
  lemma {:induction false} WithoutTwice(ids: seq<int>, a: seq<int>, b: seq<int>)
    ensures Without(Without(ids, a), b) == Without(ids, a + b)
  {
    if ids != [] {
      WithoutTwice(ids[1..], a, b);
      var rest := Without(ids[1..], a);
      assert ids[0] in a + b <==> ids[0] in a || ids[0] in b;
      if ids[0] in a {
        assert Without(ids, a) == [] + rest == rest;
        assert Without(ids, a + b) == [] + Without(ids[1..], a + b);
      } else {
        var r := [ids[0]] + rest;
        assert Without(ids, a) == r;
        assert r[0] == ids[0] && r[1..] == rest;
        assert Without(r, b) == (if ids[0] in b then [] else [ids[0]]) + Without(rest, b);
      }
    }
  }

  /** Deleting nothing changes nothing. */
  lemma {:induction false} WithoutNothing(ids: seq<int>)
    ensures Without(ids, []) == ids
  {
    if ids != [] {
      WithoutNothing(ids[1..]);
      assert ids == [ids[0]] + ids[1..];
    }
  }

  /** Deleting exactly the ids no job uses leaves exactly the used ones, in order. */
  lemma {:induction false} DeleteUnusedLeavesUsed(ids: seq<int>, deleted: seq<int>, used: set<int>)
    requires forall k :: 0 <= k < |ids| ==> (ids[k] in deleted <==> ids[k] !in used)
    ensures Without(ids, deleted) == Used(ids, used)
  {
    if ids != [] {
      var rest := ids[1..];
      forall k | 0 <= k < |rest| ensures rest[k] in deleted <==> rest[k] !in used {
        assert rest[k] == ids[k + 1];
      }
      DeleteUnusedLeavesUsed(rest, deleted, used);
      if ids[0] in used {
        assert Without(ids, deleted) == [ids[0]] + Without(rest, deleted);
      } else {
        assert Without(ids, deleted) == [] + Without(rest, deleted);
      }
    }
  }

  /** Pruning the unused ids leaves exactly the ids some job refers to. */
  lemma PruneLeavesUsed(ids: seq<int>, used: set<int>)
    ensures Without(ids, Unused(ids, used)) == Used(ids, used)
    ensures forall x :: x in Without(ids, Unused(ids, used)) <==> x in ids && x in used
  {
    forall k | 0 <= k < |ids| ensures ids[k] in Unused(ids, used) <==> ids[k] !in used {
      UnusedMember(ids, used, ids[k]);
    }
    DeleteUnusedLeavesUsed(ids, Unused(ids, used), used);
    WithoutMembers(ids, Unused(ids, used));
  }

  /** The loop issues ceil(n / chunk_size) statements: enough chunks, and no spare one. */
  lemma {:induction false} BatchesBounds(n: nat, chunkSize: nat)
    requires chunkSize >= 1
    ensures n <= Batches(n, chunkSize) * chunkSize
    ensures n > 0 ==> (Batches(n, chunkSize) - 1) * chunkSize < n
  {
    if n > chunkSize {
      BatchesBounds(n - chunkSize, chunkSize);
      assert Batches(n, chunkSize) == 1 + Batches(n - chunkSize, chunkSize);
    } else if n > 0 {
      assert Batches(n, chunkSize) == 1 + Batches(0, chunkSize);
    }
  }

  /** A table of a model `prune` works on (job types, job groups or machines). */
  class IdTable {
    var ids: seq<int>
    /** How many DELETE statements have been issued against the table. */
    var deletes: nat

    constructor (ids: seq<int>)
      ensures this.ids == ids && deletes == 0
    {
      this.ids := ids;
      deletes := 0;
    }
  }

  class TreeherderCycler {
    const chunkSize: int
    const sleepTime: int
    /** `days or DEFAULT_CYCLE_INTERVAL` */
    const days: int

    constructor (chunkSize: int, sleepTime: int, days: Option<int>)
      ensures this.chunkSize == chunkSize && this.sleepTime == sleepTime
      ensures this.days == RetentionDays(days, DefaultCycleInterval)
    {
      this.chunkSize := chunkSize;
      this.sleepTime := sleepTime;
      this.days := RetentionDays(days, DefaultCycleInterval);
    }

    /**
     * `_remove_leftovers.prune`: the unused ids are read once, then deleted
     * `chunk_size` at a time, the list being resliced after every chunk.
     */
    method Prune(table: IdTable, used: set<int>) returns (ghost batches: seq<seq<int>>)
      requires chunkSize >= 1
      modifies table
      ensures table.ids == Without(old(table.ids), Unused(old(table.ids), used))
      // consecutive chunks of 1 to chunk_size ids, each unused id deleted once
      ensures Concat(batches) == Unused(old(table.ids), used)
      ensures forall k :: 0 <= k < |batches| ==> 1 <= |batches[k]| <= chunkSize
      ensures table.deletes == old(table.deletes) + |batches|
      ensures |batches| == Batches(|Unused(old(table.ids), used)|, chunkSize)
    {
      var unusedIds := Unused(table.ids, used);
      ghost var ids0, all := table.ids, unusedIds;
      batches := [];
      WithoutNothing(ids0);
      while |unusedIds| > 0
        invariant Concat(batches) + unusedIds == all
        invariant table.ids == Without(ids0, Concat(batches))
        invariant forall k :: 0 <= k < |batches| ==> 1 <= |batches[k]| <= chunkSize
        invariant table.deletes == old(table.deletes) + |batches|
        invariant |batches| + Batches(|unusedIds|, chunkSize) == Batches(|all|, chunkSize)
        decreases |unusedIds|
      {
        var n := Min(chunkSize, |unusedIds|);
        var deleteIds := unusedIds[..n];
        ghost var deleted := Concat(batches);
        WithoutTwice(ids0, deleted, deleteIds);
        table.ids := Without(table.ids, deleteIds);
        table.deletes := table.deletes + 1;
        assert unusedIds == deleteIds + unusedIds[n..];
        ConcatAssoc(deleted, deleteIds, unusedIds[n..]);
        assert (batches + [deleteIds])[..|batches|] == batches;
        batches := batches + [deleteIds];
        unusedIds := unusedIds[n..];
      }
      ConcatEmpty(Concat(batches));
    }

    /**
     * `_remove_leftovers`: prunes job types, job groups and machines against
     * the jobs that remain.
     */
    method RemoveLeftovers(jobs: seq<Job>, jobTypes: IdTable, jobGroups: IdTable, machines: IdTable)
      requires chunkSize >= 1
      requires jobTypes != jobGroups && jobTypes != machines && jobGroups != machines
      modifies jobTypes, jobGroups, machines
      ensures jobTypes.ids == Used(old(jobTypes.ids), UsedIds(jobs, JobTypeId))
      ensures jobGroups.ids == Used(old(jobGroups.ids), UsedIds(jobs, JobGroupId))
      ensures machines.ids == Used(old(machines.ids), UsedIds(jobs, MachineId))
      // an id survives exactly when it was in the table and some remaining job refers to it
      ensures forall x :: x in jobTypes.ids <==> x in old(jobTypes.ids) && exists j :: j in jobs && j.jobTypeId == x
      ensures forall x :: x in jobGroups.ids <==> x in old(jobGroups.ids) && exists j :: j in jobs && j.jobGroupId == x
      ensures forall x :: x in machines.ids <==> x in old(machines.ids) && exists j :: j in jobs && j.machineId == x
    {
      ghost var typeBatches := Prune(jobTypes, UsedIds(jobs, JobTypeId));
      PruneLeavesUsed(old(jobTypes.ids), UsedIds(jobs, JobTypeId));
      ghost var groupBatches := Prune(jobGroups, UsedIds(jobs, JobGroupId));
      PruneLeavesUsed(old(jobGroups.ids), UsedIds(jobs, JobGroupId));
      ghost var machineBatches := Prune(machines, UsedIds(jobs, MachineId));
      PruneLeavesUsed(old(machines.ids), UsedIds(jobs, MachineId));
    }
  }
}

=== FILE: wrappers.dfy ===
/** Option and Result, the failure-carrying values used throughout the model. */
module Wrappers {

  datatype Option<+T> = None | Some(value: T)

  datatype Result<+R, +E> = Success(value: R) | Failure(error: E)
}
